=== FILE: README.md ===
# Apollo client synchronisation engine in Dafny

This project models the client-side state machine of `ApolloClient` from
`best_apollo_client/apollo_client.py`. The client keeps three pieces of
mutable state in step:

- `_notification_map`: namespace → last notification id, in dict insertion
  order;
- `_cache`: namespace → key/value mapping;
- `callback_funcs`: the ordered observer list, with `init_config` first.

It also keeps the `_stopping` / `stopped` flags, and writes the process-wide
`ApolloData` store through `init_config`.

HTTP is an input. A long-poll request ends in `Responded(status, changes)` or
`TimedOut`. Each entry of a 200 response carries the reply that its follow-up
`/configs` fetch receives. `get_value(..., auto_fetch_on_cache_miss=True)`
takes the reply of its `/configfiles` fetch as a parameter. A `stop()` (or a
termination signal) coming from another thread is an event in the same script:
`StopRequest` when it lands outside a long-poll request, and
`PollWithStop(outcome)` when it lands while a request is in flight, which then
ends with `outcome`. What the client does to the outside world is logged in a
`trace`: each long-poll request with its payload, each configuration fetch,
each backoff sleep, and each call of a user callback with its argument.

Files:

- `types.dfy` (`ApolloTypes`): values, callbacks, replies, events, effects.
- `global_var.dfy` (`GlobalStore`): the `GlobalVar` class and `init_config`,
  which is a loop over the mapping's keys.
- `client_state.dfy` (`ClientState`): the client state as a value and one
  function per operation. These functions are the specification.
- `apollo_client.dfy` (`ApolloClientModel`): the `ApolloClient` class. Its
  fields are the source's attributes, and its methods update them in place
  with the source's loops. Each method is proved to produce the state that the
  matching `ClientState` function gives.
- `fetch_facts.dfy`, `poll_facts.dfy`, `client_facts.dfy`: lemmas about those
  functions. They cover both outcomes of a fetch and each outcome of one long
  poll attempt. For `get_value` they cover a cached namespace and a new
  namespace. For the new namespace, the blocking poll either times out any
  number of times and then gets a 200, or sees no 200 at all. For the
  listener they cover polling while not stopping, and shutdown.

Behaviours of the code that the model keeps as written:

- A stop requested while the listener's request is in flight ends the
  listener after that request, with no sleep after a timeout or an error
  status; a 200 is still processed (lines 194-203, 207;
  `StopDuringRequestEndsListener`).
- A stop requested during the sleep after an error status ends the listener
  with no further request (lines 194-198, 207;
  `StopDuringErrorSleepEndsListener`). A stop requested during the sleep after
  a timeout does not: the `while True` loop sends one more request before it
  looks at `_stopping` again (lines 170-176, 199-203;
  `StopDuringTimeoutSleepStillPolls`).
- A namespace's notification id is recorded even when its fetch fails: line 192
  runs whatever status line 142 saw (`LastListedEntryWins`). The id can then
  be ahead of the cached entry.
- The notification map starts as `{'application': -1}` and the cache starts
  empty (lines 60-61).
- Every status other than 200 and 304 backs off (line 194), including other
  2xx and 3xx codes.
- A key missing from a cached entry is fetched again through
  `_cached_http_get` when `auto_fetch_on_cache_miss` is set (line 93).
  Success there follows requests' `Response.ok`: every status outside 400-599
  counts as ok (line 124).

## Model

| member | source | states |
|---|---|---|
| GlobalStore.GlobalVar.constructor | best_apollo_client/apollo_client.py:13-15 | a fresh store holds only the class attribute `name = 'best_apollo_client'` |
| GlobalStore.GlobalVar.Set | best_apollo_client/apollo_client.py:17-18 | `setattr` overwrites one attribute and keeps all others |
| GlobalStore.GlobalVar.Get | best_apollo_client/apollo_client.py:20-21 | `getattr` gives the attribute when it is set and the supplied default otherwise |
| ApolloTypes.Lookup | best_apollo_client/apollo_client.py:134-137 | `data[key]` when the key is present, the default otherwise |
| GlobalStore.InitConfig | best_apollo_client/apollo_client.py:27-31 | after `init_config(d)`, `get(k)` gives `d[k]` for every key of `d` (later calls overwrite earlier values); every other name keeps its old value or the supplied default |
| ClientState.Initial | best_apollo_client/apollo_client.py:54-61 | a new client tracks only `application` and has an empty cache; the tracking invariant holds and `init_config` is the first callback |
| ApolloClientModel.ApolloClient.constructor | best_apollo_client/apollo_client.py:54-61 | notification map `{'application': -1}`, empty cache, `callback_funcs == [init_config]`, both flags false, the store untouched |
| ClientState.Track | best_apollo_client/apollo_client.py:192 | assigning an id overwrites it whatever its old value; a new key goes to the end of the iteration order, an existing key keeps its place; no other id, no cache entry and no flag changes; the tracking invariant is kept |
| ClientState.Register | best_apollo_client/apollo_client.py:80-81 | after registration the namespace is tracked; nothing is removed and the cache is untouched |
| ApolloClientModel.ApolloClient.RegisterNamespace | best_apollo_client/apollo_client.py:80-81 | the method adds an unseen namespace with id -1 at the end of the order, exactly as `Register` says, and keeps the invariant |
| ClientState.Payload | best_apollo_client/apollo_client.py:162-168 | the payload has one `(namespaceName, notificationId)` entry per tracked namespace, in the map's iteration order, each with its current id |
| ApolloClientModel.ApolloClient.BuildNotifications | best_apollo_client/apollo_client.py:162-168 | the appending loop builds exactly that payload |
| ClientFacts.RegisterPayload | best_apollo_client/apollo_client.py:80-81 | registering an unseen namespace adds `(ns, -1)` at the end of the payload and leaves the rest as it was |
| ClientState.Invoke | best_apollo_client/apollo_client.py:152-154 | one callback: `init_config` merges the mapping into the global store, a user function is called once with it, a non-callable entry does nothing; nothing else changes |
| ClientState.Dispatch | best_apollo_client/apollo_client.py:151-154 | running the callbacks changes only the global store and the trace, and the trace only grows |
| FetchFacts.DispatchTrace | best_apollo_client/apollo_client.py:151-154 | the user callbacks are called exactly once each, in list order, all with the same mapping; non-callable entries are skipped |
| FetchFacts.CallsShape | best_apollo_client/apollo_client.py:151-154 | each call made by a dispatch passes the new mapping; with only user functions in the list, there is one call per entry, in list order |
| FetchFacts.DispatchGlobals | best_apollo_client/apollo_client.py:151-154 | `init_config` merges the mapping into the global store; without it the store is untouched |
| ClientState.FetchConfig | best_apollo_client/apollo_client.py:139-154 | a fetch never touches the notification map, its order, the callbacks or the flags; a 200 adds or keeps the namespace's cache entry and leaves every other entry unchanged |
| ApolloClientModel.ApolloClient.UncachedHttpGet | best_apollo_client/apollo_client.py:139-154 | the method, with its callback loop, produces exactly the `FetchConfig` state |
| FetchFacts.FetchReplacesEntry | best_apollo_client/apollo_client.py:142-154 | a 200 fetch replaces the entry with exactly the fetched `configurations`, so keys missing from the new data disappear; other entries and the notification map are untouched; the callbacks run once each, in order, with that mapping |
| FetchFacts.FailedFetchChangesNothing | best_apollo_client/apollo_client.py:142 | a non-200 fetch changes nothing and invokes nothing |
| FetchFacts.CallbacksRunInRegistrationOrder | best_apollo_client/apollo_client.py:151-154 | with callbacks A and B registered in that order, one change calls A and then B, both with the same mapping |
| ClientState.ApplyChange | best_apollo_client/apollo_client.py:188-192 | one entry keeps the tracking invariant, removes no namespace and only appends to the iteration order |
| ClientState.ApplyChanges | best_apollo_client/apollo_client.py:187-193 | the entry loop keeps the tracking invariant, removes no namespace and only appends to the iteration order |
| ApolloClientModel.ApolloClient.ProcessChanges | best_apollo_client/apollo_client.py:187-193 | the `for entry in data` loop produces exactly the `ApplyChanges` state |
| ApolloClientModel.ApolloClient.ProcessEntry | best_apollo_client/apollo_client.py:188-192 | one iteration of that loop, the fetch and then the id assignment, produces exactly the `ApplyChange` state |
| PollFacts.ApplyChangeEntry | best_apollo_client/apollo_client.py:188-192 | one entry sets the namespace's id to the reported one; its cache entry becomes the fetched mapping on a 200 and is otherwise kept |
| PollFacts.ApplyChangesAppend | best_apollo_client/apollo_client.py:187-193 | the entry loop processes a listing in order: processing `a + b` is processing `a` and then `b` |
| PollFacts.UnlistedNamespaceUntouched | best_apollo_client/apollo_client.py:187-193 | a namespace not listed in a 200 response keeps both its id and its cache entry, present or absent alike |
| PollFacts.LastListedEntryWins | best_apollo_client/apollo_client.py:187-193 | a listed namespace ends with its last reported id, without any monotonic check and even when that fetch failed; its entry is the fetched mapping on a 200 and otherwise stays as it was |
| PollFacts.OtherEntryUntouched | best_apollo_client/apollo_client.py:188-192 | an entry for another namespace leaves this namespace's id and cache entry as they were, present or absent alike |
| PollFacts.ApplyChangesTrace | best_apollo_client/apollo_client.py:187-193 | the entries are processed in the order listed: each one's fetch, then its callback calls when that fetch succeeded |
| PollFacts.ApplyChangeTrace | best_apollo_client/apollo_client.py:188-192 | one entry appends its `/configs` fetch and, when that fetch got a 200, one call per user callback |
| PollFacts.ApplyChangesLast | best_apollo_client/apollo_client.py:187-193 | the last entry's effects come after those of all the entries before it |
| PollFacts.ChangeEffectsMakeNoPolls | best_apollo_client/apollo_client.py:187-193 | processing the entries of a 200 makes no long-poll request |
| PollFacts.ChangesSendNoPolls | best_apollo_client/apollo_client.py:187-193 | processing the entries only appends to the trace, and nothing it appends is a long-poll request |
| ClientState.Attempts | best_apollo_client/apollo_client.py:170-203 | the retry loop, one `Step` per event until one leaves it, uses at most the whole script, and at least one event when the script is not empty; it keeps the tracking invariant, removes no namespace, never changes the callbacks and never sets `stopped` |
| ClientState.Request | best_apollo_client/apollo_client.py:170-203 | one request: it leaves the loop exactly on a response, or on a timeout while stopping; it keeps the tracking invariant and `_stopping`, never changes the callbacks or `stopped`, and removes no namespace |
| ApolloClientModel.ApolloClient.SendRequest | best_apollo_client/apollo_client.py:170-203 | the method sends the request, then returns, processes the entries or sleeps as the outcome requires, giving exactly the `Request` state and exit decision |
| ClientState.Step | best_apollo_client/apollo_client.py:170-203 | one iteration of the `while True` loop: it leaves the loop exactly on a request's outcome other than a timeout while not stopping; a stop before or during the request sets `_stopping`; it keeps the tracking invariant, never changes the callbacks or `stopped`, and removes no namespace |
| ApolloClientModel.ApolloClient.Attempt | best_apollo_client/apollo_client.py:170-203 | a stop sets `_stopping`; a request, with or without a stop during it, is `SendRequest`; this gives exactly the `Step` state and exit decision |
| PollFacts.StepSendsPayload | best_apollo_client/apollo_client.py:170-203 | one iteration only appends to the trace, and every request it appends carries the payload |
| PollFacts.RequestSendsPayload | best_apollo_client/apollo_client.py:170-203 | one request only appends to the trace, and every long-poll request it appends carries the payload |
| PollFacts.StepRequestsFirst | best_apollo_client/apollo_client.py:170-176 | an iteration that polls, whether or not a stop lands during it, starts with the request carrying the payload |
| ClientState.LongPoll | best_apollo_client/apollo_client.py:160-203 | one long poll keeps the tracking invariant, never removes a namespace, and uses at most the whole script and at least one event when the script is not empty |
| ApolloClientModel.ApolloClient.LongPoll | best_apollo_client/apollo_client.py:160-203 | the method, with its payload built once and its `while True` loop, produces exactly the `LongPoll` state and uses that many events |
| PollFacts.RetriesSendSamePayload | best_apollo_client/apollo_client.py:162-203 | every request of one long poll, retries after a timeout included, carries the payload that was built once before the loop; the trace only grows |
| PollFacts.FirstAttemptRequests | best_apollo_client/apollo_client.py:170-176 | when the first event is a request's outcome, the first effect of a long poll is the request that carries the payload |
| PollFacts.StopDuringRequestEndsPoll | best_apollo_client/apollo_client.py:180-203 | a stop landing during a request ends the poll after that request whatever its outcome: no sleep follows, only a 200's entries are processed, and one event is used |
| PollFacts.NoChangeKeepsData | best_apollo_client/apollo_client.py:170-203 | with only 304s, other statuses, timeouts and stop requests, the notification map, its order, the cache, the callbacks and the global store are left exactly as they were |
| PollFacts.PollsKeepStopping | best_apollo_client/apollo_client.py:170-203 | a long poll never changes `_stopping` itself: with no stop request in the script, the flag is as it was |
| PollFacts.ChangedEndsPoll | best_apollo_client/apollo_client.py:185-193 | a 200 ends the poll after one request and the processing of its entries, using one event |
| PollFacts.ChangedAfterTimeouts | best_apollo_client/apollo_client.py:170-203 | after `k` timeouts while not stopping, the loop has sent `k` requests, each followed by a sleep, all with the same payload; then a 200 ends it after one more request and the processing of its entries, using `k + 1` events |
| PollFacts.NotModifiedEndsPoll | best_apollo_client/apollo_client.py:180-183 | a 304 ends the poll at once; only the request has happened |
| PollFacts.ErrorStatusBacksOff | best_apollo_client/apollo_client.py:194-198 | any status other than 200 and 304 ends the poll after one sleep, and the sleep is skipped when a stop was requested |
| PollFacts.TimeoutWhileStoppingEndsPoll | best_apollo_client/apollo_client.py:199-203 | a timeout while stopping returns without changing anything |
| PollFacts.TimeoutSleepsAndRetries | best_apollo_client/apollo_client.py:199-201 | otherwise a timeout sleeps once and retries with the identical payload |
| PollFacts.StopDuringTimeoutSleepStillPolls | best_apollo_client/apollo_client.py:170-203 | a stop requested during the sleep after a timeout still lets one more request go out |
| PollFacts.StopThenRetry | best_apollo_client/apollo_client.py:170-203 | a stop arriving while the loop runs only raises the flag, and the loop goes on with the next event |
| PollFacts.LastRequestSent | best_apollo_client/apollo_client.py:170-176 | a lone poll event uses one event and appends a request with the payload after the existing trace |
| ClientState.CachedGet | best_apollo_client/apollo_client.py:121-137 | `_cached_http_get` changes only the cache and the trace, and keeps the set of cached namespaces |
| ApolloClientModel.ApolloClient.CachedHttpGet | best_apollo_client/apollo_client.py:121-137 | the method gives exactly the `CachedGet` state and value |
| ClientState.Prepare | best_apollo_client/apollo_client.py:80-88 | after registration and the blocking poll, the namespace is both tracked and cached, and nothing is removed |
| ApolloClientModel.ApolloClient.PrepareNamespace | best_apollo_client/apollo_client.py:80-88 | the method registers the namespace, gives an uncached one an empty entry and runs the blocking poll, giving exactly the `Prepare` state and event count; afterwards the namespace is cached |
| ClientState.GetValue | best_apollo_client/apollo_client.py:79-96 | after `get_value` the namespace is tracked and cached, every earlier namespace is still present, and every cached namespace is tracked; the value it returns is stated by `GetValueReadsPrepared` |
| ApolloClientModel.ApolloClient.GetValue | best_apollo_client/apollo_client.py:79-96 | the method gives exactly the `GetValue` state, value and number of events used |
| ClientFacts.PrepareNewNamespace | best_apollo_client/apollo_client.py:80-88 | an uncached namespace forces a blocking long poll whose first request already lists it, with id -1 when it was unseen |
| ClientFacts.GetValueNewNamespace | best_apollo_client/apollo_client.py:79-88 | when the first event is a poll response, `get_value` on an uncached namespace uses at least one event, and its first effect is the long-poll request listing the namespace |
| ClientState.Entered | best_apollo_client/apollo_client.py:80-85 | before the blocking poll of an uncached namespace, it is registered and has an empty entry; every other entry is kept |
| ClientFacts.PreparedWithoutChange | best_apollo_client/apollo_client.py:80-88 | when the blocking poll sees no 200, only the registration and the empty entry remain |
| ClientFacts.GetValueReadsPrepared | best_apollo_client/apollo_client.py:79-96 | `get_value` reads the entry its first half leaves: the value there, or the miss value; only an auto-fetch's replacement changes the cache |
| ClientState.Read | best_apollo_client/apollo_client.py:90-96 | the read half of `get_value`: the entry's value when the key is present, and nothing changes; otherwise the miss value, and only an ok auto-fetch replaces the entry |
| ApolloClientModel.ApolloClient.ReadEntry | best_apollo_client/apollo_client.py:90-96 | the method returns the cached value, the `_cached_http_get` result or the default, giving exactly the `Read` state and value |
| ClientFacts.NewNamespaceReadsLastFetch | best_apollo_client/apollo_client.py:79-96 | for an uncached namespace whose blocking poll times out `k` times (sleeping and retrying, while not stopping) and then gets a 200 where its last entry fetched 200: `get_value` uses `k + 1` events and reads that entry's mapping (or falls back on a miss), and the id is that entry's id |
| ClientFacts.NewNamespaceReadsEmptyEntry | best_apollo_client/apollo_client.py:79-96 | for an uncached namespace whose blocking poll times out `k` times (while not stopping) and then gets a 200 where it is unlisted or every fetch for it failed: the entry stays `{}`, `k + 1` events are used, and `get_value` gives the default or the auto-fetch result |
| ClientFacts.EmptyEntryValue | best_apollo_client/apollo_client.py:84-96 | when the first half of `get_value` leaves the namespace with an empty entry, the value is the miss value of that empty entry, the event count is the first half's, and only an ok auto-fetch fills the entry |
| ClientFacts.NewNamespaceWithoutChangeReadsEmptyEntry | best_apollo_client/apollo_client.py:79-96 | for an uncached namespace whose blocking poll sees no 200 (304s, other statuses, timeouts, stops), only the registration and the empty entry remain, and `get_value` gives the default or the auto-fetch result |
| PollFacts.NoSuccessfulFetchKeepsEntry | best_apollo_client/apollo_client.py:187-193 | a namespace whose listed entries all failed to fetch keeps its cache entry, present or absent alike |
| ClientFacts.GetValueCachedNamespace | best_apollo_client/apollo_client.py:84-96 | on a cached namespace `get_value` never polls. It returns `_cache[ns][key]` when present. Otherwise it returns the default without auto-fetch. With auto-fetch, an ok reply replaces the whole entry before the lookup; a failed one returns the default |
| ClientFacts.FirstReadWaitsForSync | best_apollo_client/apollo_client.py:79-96 | a first read of `application`, after the service reports version 5 with `{"timeout": "30"}`, returns "30" rather than the default "10". The id becomes 5 and the global store has the new value |
| ClientState.Entries | best_apollo_client/apollo_client.py:99-100 | a list or tuple is taken as it is; any other object becomes a one-element list |
| ClientState.AddCallbacks | best_apollo_client/apollo_client.py:98-101 | only `callback_funcs` changes; it keeps its old entries as a prefix, followed by exactly the new entries; the invariant is kept |
| ClientFacts.AddCallbacksAppends | best_apollo_client/apollo_client.py:98-101 | a lone object is wrapped into a one-element list; entries are appended in order, duplicates allowed; nothing is removed or reordered, so `init_config` stays first |
| ApolloClientModel.ApolloClient.AddCallbackFuncs | best_apollo_client/apollo_client.py:98-101 | the method appends to `callback_funcs` as `AddCallbacks` says and keeps the invariant |
| ClientState.Start | best_apollo_client/apollo_client.py:105-108 | with a non-empty cache `start` changes nothing and uses no event; with an empty one it uses at least one event of a non-empty script; the invariant is kept and the callbacks are untouched |
| ClientFacts.StartPollsOnlyWhenCacheEmpty | best_apollo_client/apollo_client.py:105-108 | `start` runs a blocking first poll exactly when the cache is empty, and that poll's first request lists every tracked namespace with its id |
| ApolloClientModel.ApolloClient.Start | best_apollo_client/apollo_client.py:105-108 | the method performs that first poll |
| ClientState.Stop | best_apollo_client/apollo_client.py:117-119 | `stop()` sets the stop flag and changes nothing else |
| ApolloClientModel.ApolloClient.Stop | best_apollo_client/apollo_client.py:117-119 | `stop()` sets `_stopping` and nothing else |
| ClientState.Listen | best_apollo_client/apollo_client.py:205-211 | the listener keeps the tracking invariant and never removes a namespace |
| ApolloClientModel.ApolloClient.Listener | best_apollo_client/apollo_client.py:205-211 | the `while not self._stopping` loop produces exactly the `Listen` state |
| ApolloClientModel.ApolloClient.ListenOnce | best_apollo_client/apollo_client.py:205-208 | one pass of the loop, a stop or one long poll, uses at least one event and leaves the rest of the listener's run as it was |
| ClientFacts.ListenerStopsOnlyAfterStop | best_apollo_client/apollo_client.py:205-211 | `stopped` becomes true only when the loop has exited on `_stopping`; the listener never changes the callbacks |
| ClientFacts.ListenTraceGrows | best_apollo_client/apollo_client.py:205-211 | the listener only appends to the trace |
| ClientFacts.ListenPollsWhenRunning | best_apollo_client/apollo_client.py:205-208 | while `_stopping` is false and the next event is a poll outcome, the listener's next effect is a long-poll request listing every tracked namespace with its id |
| ClientFacts.ListenWithoutStopNeverStops | best_apollo_client/apollo_client.py:205-211 | with no stop request, the listener never sets `stopped` and `_stopping` stays false |
| ClientFacts.StopBetweenPollsEndsListener | best_apollo_client/apollo_client.py:205-211 | a stop between two polls ends the listener without a further request |
| ClientFacts.StopDuringRequestEndsListener | best_apollo_client/apollo_client.py:180-211 | a stop landing while the listener's request is in flight ends the listener after that single request, with no sleep, and with a 200's entries processed |
| ClientFacts.StopDuringErrorSleepEndsListener | best_apollo_client/apollo_client.py:194-211 | a stop during the sleep after an error status ends the listener after that single request |

## Left out

- HTTP transport: `requests.get`, URL formatting, the JSON encoding of the `notifications` parameter, and the `ip` query parameter. Replies are inputs.
- Malformed replies: a body that is not JSON, or one missing `configurations`, `releaseKey`, `namespaceName` or `notificationId`, raises in the source. A 200 `/configs` reply without `releaseKey` raises at line 145, after line 144 has already replaced the entry, so the callbacks and line 192 are skipped. These are not modelled: every reply is taken as well formed.
- Transport errors other than `requests.Timeout`, such as a connection error, propagate out of `_long_poll` and end the listener thread with `stopped` still false. They are not modelled.
- `time.sleep`: it appears only as a `Sleep` entry in the trace. The timeout value is not kept.
- Constructor parameters `app_id`, `cluster`, `config_server_url`, `timeout`, `ip`, `log_config` and `log_store_path`. They feed only URLs, sleeps and debug dumps, so they are not stored.
- `init_ip` (a UDP socket probe), `write_config_to_file` and the `log_config` branches (file and YAML output), and all logging.
- `start`'s signal registration and daemon thread, and `_signal_handler`. The handler only sets `_stopping`, exactly as `stop()` does, so it appears as a stop event (`StopRequest` or `PollWithStop`). The listener runs sequentially over a finite script.
- Concurrency: the model is sequential. Readers running beside the listener are not modelled, so neither is the atomicity of one entry's replacement. A stop from another thread lands either between two requests (`StopRequest`) or during one (`PollWithStop`). Which of the two a stop is, relative to the listener's check at line 207, is chosen by the script.
- ClientState.LongPoll: when the script runs out inside the `while True` loop, the poll returns where the source would stay blocked. This covers an empty script, and a script that ends on a timeout. The same holds for `ClientState.Attempts`, `ClientState.Prepare`, `ClientState.GetValue` and `ClientState.Start`, and for `ApolloClientModel.ApolloClient.LongPoll`, `GetValue` and `Start`. In that case `get_value` may answer from an entry no request has filled, where the source would not have returned yet.
- ApolloClientModel.ApolloClient.Listener: when the script runs out before a stop, the method returns with `stopped` unchanged. The source's thread would still be blocked polling at that point.
- ClientState.Listen: when the script runs out inside a long poll after a stop has been seen there, for example `[Poll(TimedOut), StopRequest]`, the poll returns and the listener sets `stopped`. The source would first send one more request (lines 170-176 and 199-201) before it leaves `_long_poll` and the loop of lines 207-211. The same holds for `ApolloClientModel.ApolloClient.Listener`. When more events follow, the request is sent (`StopDuringTimeoutSleepStillPolls`).
- Callbacks: a user function is known only by an id, and its call is recorded in the trace. The model assumes no callback raises. In the source, a raising callback propagates out of `_uncached_http_get` (lines 151-154) and skips the callbacks after it. It also assumes none mutates the mapping it receives (the same dict object as the cache entry) or `callback_funcs`.
- Values: configuration values are strings. Nested JSON values and `None` are not modelled. The `None` default of `get_value` is `Option.None`.
- GlobalStore.GlobalVar.Set: every key is treated as plain data, including keys that name the store's methods (`set`, `get`) or Python's special attributes. In the source, `init_config({"set": v})` hides the `set` method, so every later `init_config` raises at line 31. A key such as `__class__` or `__dict__` makes `setattr` raise partway through the loop of lines 30-31, leaving the store half-updated.
- GlobalStore.InitConfig: the same holds for the whole mapping passed to `init_config` (lines 28-31). A key naming `set`, `get` or a special attribute is stored as plain data, where the source hides a method or raises partway through the loop.
- GlobalStore.GlobalVar.constructor: `getattr` also finds the methods `set` and `get` and Python's own object attributes. Only the class attribute `name` is modelled.
- `setup.py` is packaging metadata and is not part of this model.

=== FILE: apollo_client.dfy ===
/** The `ApolloClient` object: its dictionaries, callback list and flags are
    fields updated in place, and every method is proved to leave the object in
    the state the matching function of `ClientState` gives. HTTP replies, and
    `stop()` calls arriving from other threads, are the method's `script`. */
module ApolloClientModel {
  import opened ApolloTypes
  import opened GlobalStore
  import opened ClientState

  class ApolloClient {
    /** `_notification_map`, and the insertion order of its keys. */
    var notificationMap: map<string, int>
    var order: seq<string>
    /** `_cache`. */
    var cache: map<string, Config>
    /** `callback_funcs`. */
    var callbackFuncs: seq<Callback>
    /** `_stopping` and `stopped`. */
    var stopping: bool
    var stopped: bool
    /** What the client has done to the outside world, oldest first. */
    var trace: seq<Effect>
    /** The module-level `ApolloData` that `init_config` writes to. */
    const store: GlobalVar

    ghost function Abs(): State
      reads this, store
    {
      State(notificationMap, order, cache, callbackFuncs, store.attrs, stopping, stopped, trace)
    }

    ghost predicate Valid()
      reads this, store
    {
      WellFormed(Abs())
    }

    /** `ApolloClient.__init__`. */
    constructor (store: GlobalVar)
      ensures this.store == store && store.attrs == old(store.attrs)
      ensures Valid() && Abs() == Initial(store.attrs)
    {
      this.store := store;
      stopped := false;
      callbackFuncs := [InitConfigFn];
      stopping := false;
      cache := map[];
      notificationMap := map["application" := -1];
      order := ["application"];
      trace := [];
    }

    /** `get_value(key, default_val, namespace, auto_fetch_on_cache_miss)`. */
    method GetValue(key: string, default: Option<Value>, namespace: string, autoFetch: bool,
                    script: seq<Event>, reply: HttpReply)
      returns (value: Option<Value>, consumed: nat)
      requires Valid()
      modifies this, store
      ensures Valid()
      ensures GetResult(Abs(), value, consumed)
           == ClientState.GetValue(old(Abs()), key, default, namespace, autoFetch, script, reply)
    {
      consumed := PrepareNamespace(namespace, script);
      value := ReadEntry(key, default, namespace, autoFetch, reply);
    }

    /** The start of `get_value`: register the namespace, and for one not
      cached yet create its empty entry and run the blocking long poll. */
    method PrepareNamespace(namespace: string, script: seq<Event>) returns (consumed: nat)
      requires Valid()
      modifies this, store
      ensures Valid() && namespace in cache
      ensures PollResult(Abs(), consumed) == Prepare(old(Abs()), namespace, script)
    {
      RegisterNamespace(namespace);
      ghost var known := Abs();
      consumed := 0;
      if namespace !in cache {
        cache := cache[namespace := map[]];
        assert Abs() == known.(cache := known.cache[namespace := map[]]) == Entered(old(Abs()), namespace);
        consumed := LongPoll(script);
      }
    }

    /** The first step of `get_value`: an unseen namespace is tracked with id -1. */
    method RegisterNamespace(namespace: string)
      requires Valid()
      modifies this`notificationMap, this`order
      ensures Valid()
      ensures Abs() == Register(old(Abs()), namespace)
    {
      if namespace !in notificationMap {
        order := order + [namespace];
        notificationMap := notificationMap[namespace := -1];
      }
    }

    /** The read at the end of `get_value`: the cached value, else
      `_cached_http_get` when auto-fetching, else the default. */
    method ReadEntry(key: string, default: Option<Value>, namespace: string, autoFetch: bool, reply: HttpReply)
      returns (value: Option<Value>)
      requires Valid() && namespace in cache
      modifies this
      ensures Valid()
      ensures FetchResult(Abs(), value) == Read(old(Abs()), key, default, namespace, autoFetch, reply)
    {
      if key in cache[namespace] {
        value := Some(cache[namespace][key]);
      } else if autoFetch {
        value := CachedHttpGet(key, default, namespace, reply);
      } else {
        value := default;
      }
    }

    /** `add_callback_funcs(callback_fun_list)`. */
    method AddCallbackFuncs(arg: CallbackArg)
      requires Valid()
      modifies this
      ensures Valid()
      ensures Abs() == AddCallbacks(old(Abs()), arg)
    {
      callbackFuncs := callbackFuncs + Entries(arg);
    }

    /** `start()` without the signal handlers and the thread: the blocking first
      poll when nothing is cached yet. */
    method Start(script: seq<Event>) returns (consumed: nat)
      requires Valid()
      modifies this, store
      ensures Valid()
      ensures PollResult(Abs(), consumed) == ClientState.Start(old(Abs()), script)
    {
      consumed := 0;
      if |cache| == 0 {
        consumed := LongPoll(script);
      }
    }

    /** `stop()`. */
    method Stop()
      modifies this`stopping
      ensures Abs() == ClientState.Stop(old(Abs()))
    {
      stopping := true;
    }

    /** `_cached_http_get(key, default_val, namespace)`. */
    method CachedHttpGet(key: string, default: Option<Value>, namespace: string, reply: HttpReply)
      returns (value: Option<Value>)
      requires Valid() && namespace in cache
      modifies this
      ensures Valid()
      ensures FetchResult(Abs(), value) == CachedGet(old(Abs()), key, default, namespace, reply)
    {
      trace := trace + [ConfigFilesRequest(namespace)];
      var data: Config;
      if Ok(reply.status) {
        data := reply.body;
        cache := cache[namespace := data];
      } else {
        data := cache[namespace];
      }
      if key in data {
        value := Some(data[key]);
      } else {
        value := default;
      }
    }

    /** `_uncached_http_get(namespace)`. */
    method UncachedHttpGet(namespace: string, reply: HttpReply)
      modifies this, store
      ensures Abs() == FetchConfig(old(Abs()), namespace, reply)
    {
      trace := trace + [ConfigsRequest(namespace)];
      if reply.status == 200 {
        cache := cache[namespace := reply.body];
        ghost var updated := Abs();
        for i := 0 to |callbackFuncs|
          invariant cache == updated.cache && callbackFuncs == updated.callbacks
          invariant Abs() == Dispatch(updated, callbackFuncs[..i], reply.body)
        {
          assert callbackFuncs[..i + 1][..i] == callbackFuncs[..i];
          match callbackFuncs[i]
          case InitConfigFn =>
            InitConfig(store, cache[namespace]);
          case UserFn(id) =>
            trace := trace + [Call(id, cache[namespace])];
          case NotCallable(_) =>
        }
        assert callbackFuncs[..|callbackFuncs|] == callbackFuncs;
      }
    }

    /** The loop of `_long_poll` that builds the `notifications` parameter. */
    method BuildNotifications() returns (notifications: seq<Notification>)
      requires Valid()
      ensures notifications == Payload(notificationMap, order)
    {
      notifications := [];
      for i := 0 to |order|
        invariant notifications == Payload(notificationMap, order[..i])
      {
        assert order[..i + 1][..i] == order[..i];
        notifications := notifications + [Notification(order[i], notificationMap[order[i]])];
      }
      assert order[..|order|] == order;
    }

    /** The `for entry in data` loop of `_long_poll`. */
    method ProcessChanges(changes: seq<Change>)
      requires Valid()
      modifies this, store
      ensures Valid()
      ensures Abs() == ApplyChanges(old(Abs()), changes)
    {
      for i := 0 to |changes|
        invariant Valid()
        invariant Abs() == ApplyChanges(old(Abs()), changes[..i])
      {
        ApplyChangesPrefix(old(Abs()), changes, i);
        ProcessEntry(changes[i]);
      }
      assert changes[..|changes|] == changes;
    }

    /** One iteration of that loop: fetch the namespace's configuration, then
      record its new notification id. */
    method ProcessEntry(entry: Change)
      requires Valid()
      modifies this, store
      ensures Valid()
      ensures Abs() == ApplyChange(old(Abs()), entry)
    {
      UncachedHttpGet(entry.namespace, entry.fetched);
      ghost var fetched := Abs();
      if entry.namespace !in notificationMap {
        order := order + [entry.namespace];
      }
      notificationMap := notificationMap[entry.namespace := entry.notificationId];
      assert Abs() == Track(fetched, entry.namespace, entry.notificationId);
    }

    /** One iteration of the `while True` loop of `_long_poll`, taking the
      next scripted event; `done` says whether the loop is left. */
    method Attempt(notifications: seq<Notification>, e: Event) returns (done: bool)
      requires Valid()
      modifies this, store
      ensures Valid()
      ensures StepResult(Abs(), done) == Step(old(Abs()), notifications, e)
    {
      match e
      case StopRequest =>
        // stop() called by another thread before the request is sent
        Stop();
        done := false;
      case Poll(outcome) =>
        done := SendRequest(notifications, outcome);
      case PollWithStop(outcome) =>
        // stop() called by another thread while the request is in flight
        Stop();
        done := SendRequest(notifications, outcome);
    }

    /** The body of the `try` in `_long_poll`'s loop: send the request, then
      return, process the changes, or sleep, according to its `outcome`. */
    method SendRequest(notifications: seq<Notification>, outcome: PollOutcome) returns (done: bool)
      requires Valid()
      modifies this, store
      ensures Valid()
      ensures StepResult(Abs(), done) == Request(old(Abs()), notifications, outcome)
    {
      trace := trace + [PollRequest(notifications)];
      match outcome
      case TimedOut =>
        done := stopping;
        if !stopping {
          trace := trace + [Sleep];
        }
      case Responded(status, changes) =>
        done := true;
        if status == 304 {
          return;
        }
        if status == 200 {
          ProcessChanges(changes);
        } else if !stopping {
          trace := trace + [Sleep];
        }
    }

    /** `_long_poll()`. The payload is built once; each loop iteration takes
      the next scripted event. */
    method LongPoll(script: seq<Event>) returns (consumed: nat)
      requires Valid()
      modifies this, store
      ensures Valid()
      ensures PollResult(Abs(), consumed) == ClientState.LongPoll(old(Abs()), script)
    {
      var notifications := BuildNotifications();
      ghost var start := Abs();
      consumed := 0;
      while consumed < |script|
        invariant consumed <= |script|
        invariant Valid()
        invariant var rest := Attempts(Abs(), notifications, script[consumed..]);
                  Attempts(start, notifications, script) == PollResult(rest.state, rest.consumed + consumed)
        decreases |script| - consumed
      {
        assert script[consumed..][1..] == script[consumed + 1..];
        var done := Attempt(notifications, script[consumed]);
        consumed := consumed + 1;
        if done {
          return;
        }
      }
    }

    /** One pass of the `_listener()` loop while not stopping: a `stop()`
      from another thread, or one `_long_poll()`. */
    method ListenOnce(script: seq<Event>) returns (n: nat)
      requires Valid() && !stopping && script != []
      modifies this, store
      ensures Valid() && 1 <= n <= |script|
      ensures Listen(old(Abs()), script) == Listen(Abs(), script[n..])
    {
      if script[0].StopRequest? {
        Stop();
        n := 1;
      } else {
        n := LongPoll(script);
      }
    }

    /** `_listener()`, polling through the script until stopped. A stop that
      arrives between two polls is seen at the top of the loop. */
    method Listener(script: seq<Event>)
      requires Valid()
      modifies this, store
      ensures Valid()
      ensures Abs() == Listen(old(Abs()), script)
    {
      ghost var goal := Listen(Abs(), script);
      var rest := script;
      while !stopping && rest != []
        invariant Valid()
        invariant Listen(Abs(), rest) == goal
        decreases |rest|
      {
        var n := ListenOnce(rest);
        rest := rest[n..];
      }
      if stopping {
        stopped := true;
      }
    }
  }
}

=== FILE: client_facts.dfy ===
/** What the public operations of the client guarantee: reading with
    `get_value`, registering callbacks, the first poll of `start`, and the
    listener's cooperative shutdown. */
module ClientFacts {
  import opened ApolloTypes
  import opened ClientState
  import opened FetchFacts
  import opened PollFacts

  /** Tracking a namespace not yet tracked adds one entry at the end of the
      payload. */
  lemma PayloadAppend(m: map<string, int>, order: seq<string>, ns: string, nid: int)
    requires forall k :: k in order ==> k in m
    requires ns !in order
    ensures Payload(m[ns := nid], order + [ns]) == Payload(m, order) + [Notification(ns, nid)]
  {
    var longer, shorter := Payload(m[ns := nid], order + [ns]), Payload(m, order);
    assert forall i :: 0 <= i < |order| ==> (order + [ns])[i] == order[i];
    assert forall i :: 0 <= i < |longer| ==> longer[i] == (shorter + [Notification(ns, nid)])[i];
  }

  /** `get_value` on a namespace that is already cached never polls and never
      changes the notification map. It returns the cached value when the key
      is there; otherwise, without auto-fetch, the default; with auto-fetch, the
      value in an ok reply (which replaces the entry), or the default when the
      reply failed, since the existing entry lacks the key. */
  lemma GetValueCachedNamespace(s: State, key: string, default: Option<Value>, ns: string,
                                autoFetch: bool, script: seq<Event>, reply: HttpReply)
    requires Tracked(s) && ns in s.cache
    ensures var r := GetValue(s, key, default, ns, autoFetch, script, reply);
            && r.consumed == 0
            && (key in s.cache[ns] ==> r.value == Some(s.cache[ns][key]) && r.state == s)
            && (key !in s.cache[ns] && !autoFetch ==> r.value == default && r.state == s)
            && (key !in s.cache[ns] && autoFetch ==>
                  && r.state == s.(cache := if Ok(reply.status) then s.cache[ns := reply.body] else s.cache,
                                   trace := s.trace + [ConfigFilesRequest(ns)])
                  && r.value == if Ok(reply.status) then Lookup(reply.body, key, default) else default)
  {
  }

  /** Registering a namespace adds it, with id -1, at the end of the payload
      when it was unseen, and leaves the payload alone otherwise. */
  lemma RegisterPayload(s: State, ns: string)
    requires Tracked(s)
    ensures var known := Register(s, ns);
            Payload(known.notifications, known.order)
            == Payload(s.notifications, s.order) + (if ns in s.notifications then [] else [Notification(ns, -1)])
  {
    if ns !in s.notifications {
      PayloadAppend(s.notifications, s.order, ns, -1);
    }
  }

  lemma PrepareNewNamespace(s: State, ns: string, script: seq<Event>)
    requires Tracked(s) && ns !in s.cache
    requires script != [] && script[0].Poll?
    ensures var r := Prepare(s, ns, script);
            && r.consumed >= 1
            && |r.state.trace| > |s.trace|
            && r.state.trace[|s.trace|]
               == PollRequest(Payload(s.notifications, s.order)
                              + (if ns in s.notifications then [] else [Notification(ns, -1)]))
  {
    var known := Register(s, ns);
    var entered := known.(cache := known.cache[ns := map[]]);
    var p := Payload(entered.notifications, entered.order);
    assert Prepare(s, ns, script) == Attempts(entered, p, script);
    FirstAttemptRequests(entered, p, script);
    RegisterPayload(s, ns);
  }

  lemma GetValueExtendsPrepare(s: State, key: string, default: Option<Value>, ns: string,
                               autoFetch: bool, script: seq<Event>, reply: HttpReply)
    requires Tracked(s)
    ensures var p, r := Prepare(s, ns, script), GetValue(s, key, default, ns, autoFetch, script, reply);
            r.consumed == p.consumed && p.state.trace <= r.state.trace
  {
  }

  /** `get_value` on a namespace that is not cached yet first tracks it (with
      id -1 if it was unseen) and gives it an empty entry, and then runs a
      whole long poll, blocking, whose first request already lists it. */
  lemma GetValueNewNamespace(s: State, key: string, default: Option<Value>, ns: string,
                             autoFetch: bool, script: seq<Event>, reply: HttpReply)
    requires Tracked(s) && ns !in s.cache
    requires script != [] && script[0].Poll?
    ensures var r := GetValue(s, key, default, ns, autoFetch, script, reply);
            && r.consumed >= 1
            && |r.state.trace| > |s.trace|
            && r.state.trace[|s.trace|]
               == PollRequest(Payload(s.notifications, s.order)
                              + (if ns in s.notifications then [] else [Notification(ns, -1)]))
  {
    PrepareNewNamespace(s, ns, script);
    GetValueExtendsPrepare(s, key, default, ns, autoFetch, script, reply);
  }

  lemma PrepareUnfolds(s: State, ns: string, script: seq<Event>)
    requires Tracked(s) && ns !in s.cache
    ensures var e := Entered(s, ns);
            Tracked(e) && Prepare(s, ns, script) == Attempts(e, Payload(e.notifications, e.order), script)
  {
  }

  /** `get_value` reads the entry its first half leaves: when that half ends in
      `post` after `n` events, the value is `post`'s entry for the key, or the
      miss value, and only the entry an auto-fetch replaces changes. */
  lemma GetValueReadsPrepared(s: State, key: string, default: Option<Value>, ns: string, autoFetch: bool,
                              script: seq<Event>, reply: HttpReply, post: State, n: nat)
    requires Tracked(s) && Prepare(s, ns, script) == PollResult(post, n)
    ensures ns in post.cache
    ensures var r, entry := GetValue(s, key, default, ns, autoFetch, script, reply), post.cache[ns];
            && r.consumed == n
            && r.state.notifications == post.notifications && r.state.globals == post.globals
            && (key in entry ==> r.value == Some(entry[key]))
            && (key !in entry ==> r.value == MissValue(entry, key, default, autoFetch, reply))
            && r.state.cache == post.cache[ns := if key !in entry && autoFetch && Ok(reply.status) then reply.body else entry]
  {
    GetValueIsRead(s, key, default, ns, autoFetch, script, reply, post, n);
    ReadChangesOneEntry(post, key, default, ns, autoFetch, reply);
  }

  lemma GetValueIsRead(s: State, key: string, default: Option<Value>, ns: string, autoFetch: bool,
                       script: seq<Event>, reply: HttpReply, post: State, n: nat)
    requires Tracked(s) && Prepare(s, ns, script) == PollResult(post, n)
    ensures ns in post.cache
    ensures var f := Read(post, key, default, ns, autoFetch, reply);
            GetValue(s, key, default, ns, autoFetch, script, reply) == GetResult(f.state, f.value, n)
  {
  }

  /** The read half of `get_value` changes at most the entry it reads, and
      only an auto-fetch with an ok reply replaces it. */
  lemma ReadChangesOneEntry(t: State, key: string, default: Option<Value>, ns: string, autoFetch: bool, reply: HttpReply)
    requires ns in t.cache
    ensures var r, entry := Read(t, key, default, ns, autoFetch, reply), t.cache[ns];
            && r.state.notifications == t.notifications && r.state.globals == t.globals
            && r.state.cache == t.cache[ns := if key !in entry && autoFetch && Ok(reply.status) then reply.body else entry]
  {
    var entry := t.cache[ns];
    if !(key !in entry && autoFetch && Ok(reply.status)) {
      assert t.cache[ns := entry] == t.cache;
    }
  }

  /** The blocking poll of a new namespace that times out `k` times (while
      not stopping) and then gets a 200 response processes that response's
      entries after the retried requests. */
  lemma PrepareProcessesChanges(s: State, ns: string, k: nat, cs: seq<Change>, rest: seq<Event>)
    requires Tracked(s) && ns !in s.cache && (k == 0 || !s.stopping)
    ensures var e := Entered(s, ns);
            var p := Payload(e.notifications, e.order);
            Prepare(s, ns, Timeouts(k) + [Poll(Responded(200, cs))] + rest)
            == PollResult(ApplyChanges(e.(trace := e.trace + RetriedRequests(p, k) + [PollRequest(p)]), cs), k + 1)
  {
    var e := Entered(s, ns);
    PrepareUnfolds(s, ns, Timeouts(k) + [Poll(Responded(200, cs))] + rest);
    ChangedAfterTimeouts(e, Payload(e.notifications, e.order), k, cs, rest);
  }

  lemma PreparedLastFetch(s: State, ns: string, k: nat, cs: seq<Change>, i: nat, rest: seq<Event>)
    requires Tracked(s) && ns !in s.cache && (k == 0 || !s.stopping)
    requires i < |cs| && cs[i].namespace == ns && cs[i].fetched.status == 200
    requires forall j :: i < j < |cs| ==> cs[j].namespace != ns
    ensures var p := Prepare(s, ns, Timeouts(k) + [Poll(Responded(200, cs))] + rest);
            && p.consumed == k + 1
            && ns in p.state.cache && p.state.cache[ns] == cs[i].fetched.body
            && ns in p.state.notifications && p.state.notifications[ns] == cs[i].notificationId
  {
    var e := Entered(s, ns);
    var p := Payload(e.notifications, e.order);
    var asked := e.(trace := e.trace + RetriedRequests(p, k) + [PollRequest(p)]);
    PrepareProcessesChanges(s, ns, k, cs, rest);
    LastListedEntryWins(asked, cs, i);
  }

  /** A namespace not cached yet, whose blocking poll times out `k` times
      (while not stopping, so each time it sleeps and retries) and then gets
      a 200 response in which the namespace's last entry fetched 200:
      `get_value` reads that entry's mapping, and the namespace's id is that
      entry's id. */
  lemma NewNamespaceReadsLastFetch(s: State, key: string, default: Option<Value>, ns: string, autoFetch: bool,
                                   k: nat, cs: seq<Change>, i: nat, rest: seq<Event>, reply: HttpReply)
    requires Tracked(s) && ns !in s.cache && (k == 0 || !s.stopping)
    requires i < |cs| && cs[i].namespace == ns && cs[i].fetched.status == 200
    requires forall j :: i < j < |cs| ==> cs[j].namespace != ns
    ensures var r := GetValue(s, key, default, ns, autoFetch, Timeouts(k) + [Poll(Responded(200, cs))] + rest, reply);
            var body := cs[i].fetched.body;
            && r.consumed == k + 1
            && r.state.notifications[ns] == cs[i].notificationId
            && (key in body ==> r.value == Some(body[key]))
            && (key !in body ==> r.value == MissValue(body, key, default, autoFetch, reply))
  {
    var script := Timeouts(k) + [Poll(Responded(200, cs))] + rest;
    var p := Prepare(s, ns, script);
    PreparedLastFetch(s, ns, k, cs, i, rest);
    GetValueReadsPrepared(s, key, default, ns, autoFetch, script, reply, p.state, p.consumed);
  }

  lemma PreparedEmptyEntry(s: State, ns: string, k: nat, cs: seq<Change>, rest: seq<Event>)
    requires Tracked(s) && ns !in s.cache && (k == 0 || !s.stopping)
    requires forall j :: 0 <= j < |cs| && cs[j].namespace == ns ==> cs[j].fetched.status != 200
    ensures var p := Prepare(s, ns, Timeouts(k) + [Poll(Responded(200, cs))] + rest);
            p.consumed == k + 1 && ns in p.state.cache && p.state.cache[ns] == map[]
  {
    var e := Entered(s, ns);
    var p := Payload(e.notifications, e.order);
    var asked := e.(trace := e.trace + RetriedRequests(p, k) + [PollRequest(p)]);
    PrepareProcessesChanges(s, ns, k, cs, rest);
    NoSuccessfulFetchKeepsEntry(asked, cs, ns);
  }

  lemma QuietPollKeepsEntry(s: State, ns: string, script: seq<Event>)
    requires Tracked(s) && ns !in s.cache
    requires forall i :: 0 <= i < |script| ==> NoChangeReported(script[i])
    ensures var e := Entered(s, ns);
            var polled := Attempts(e, Payload(e.notifications, e.order), script);
            polled.state.notifications == e.notifications && polled.state.cache == e.cache && polled.state.globals == e.globals
  {
    var e := Entered(s, ns);
    NoChangeKeepsData(e, Payload(e.notifications, e.order), script);
  }

  lemma PreparedWithoutChange(s: State, ns: string, script: seq<Event>)
    requires Tracked(s) && ns !in s.cache
    requires forall i :: 0 <= i < |script| ==> NoChangeReported(script[i])
    ensures var p := Prepare(s, ns, script);
            && p.state.notifications == Register(s, ns).notifications
            && p.state.cache == s.cache[ns := map[]]
            && p.state.globals == s.globals
  {
    QuietPollKeepsEntry(s, ns, script);
    PrepareUnfolds(s, ns, script);
  }

  /** A namespace not cached yet, whose blocking poll times out `k` times
      (while not stopping) and then gets a 200 response in which no entry for
      the namespace fetched 200 (it is unlisted, or every fetch for it
      failed): the entry stays empty, so `get_value` gives the
      default, or with auto-fetch `_cached_http_get`'s answer. */
  lemma NewNamespaceReadsEmptyEntry(s: State, key: string, default: Option<Value>, ns: string, autoFetch: bool,
                                    k: nat, cs: seq<Change>, rest: seq<Event>, reply: HttpReply)
    requires Tracked(s) && ns !in s.cache && (k == 0 || !s.stopping)
    requires forall j :: 0 <= j < |cs| && cs[j].namespace == ns ==> cs[j].fetched.status != 200
    ensures var r := GetValue(s, key, default, ns, autoFetch, Timeouts(k) + [Poll(Responded(200, cs))] + rest, reply);
            && r.consumed == k + 1
            && r.value == MissValue(map[], key, default, autoFetch, reply)
            && r.state.cache[ns] == if autoFetch && Ok(reply.status) then reply.body else map[]
  {
    PreparedEmptyEntry(s, ns, k, cs, rest);
    EmptyEntryValue(s, key, default, ns, autoFetch, Timeouts(k) + [Poll(Responded(200, cs))] + rest, reply);
  }

  /** When the first half of `get_value` leaves `ns` with an empty entry, the
      read gives the miss value for that empty entry, and only an ok
      auto-fetch fills it. */
  lemma EmptyEntryValue(s: State, key: string, default: Option<Value>, ns: string,
                        autoFetch: bool, script: seq<Event>, reply: HttpReply)
    requires Tracked(s)
    requires var p := Prepare(s, ns, script).state; ns in p.cache && p.cache[ns] == map[]
    ensures var r := GetValue(s, key, default, ns, autoFetch, script, reply);
            && r.consumed == Prepare(s, ns, script).consumed
            && r.value == MissValue(map[], key, default, autoFetch, reply)
            && r.state.cache[ns] == if autoFetch && Ok(reply.status) then reply.body else map[]
  {
    var p := Prepare(s, ns, script);
    GetValueReadsPrepared(s, key, default, ns, autoFetch, script, reply, p.state, p.consumed);
  }

  /** A namespace not cached yet, whose blocking poll sees no 200 response
      (only 304s, other statuses, timeouts and stops): the namespace is only
      registered, its entry stays empty, every other id and entry is kept, and
      `get_value` gives the default, or with auto-fetch `_cached_http_get`'s
      answer. */
  lemma NewNamespaceWithoutChangeReadsEmptyEntry(s: State, key: string, default: Option<Value>, ns: string,
                                                 autoFetch: bool, script: seq<Event>, reply: HttpReply)
    requires Tracked(s) && ns !in s.cache
    requires forall i :: 0 <= i < |script| ==> NoChangeReported(script[i])
    ensures var r := GetValue(s, key, default, ns, autoFetch, script, reply);
            && r.value == MissValue(map[], key, default, autoFetch, reply)
            && r.state.notifications == Register(s, ns).notifications
            && r.state.cache == s.cache[ns := if autoFetch && Ok(reply.status) then reply.body else map[]]
            && r.state.globals == s.globals
  {
    var p := Prepare(s, ns, script);
    PreparedWithoutChange(s, ns, script);
    GetValueReadsPrepared(s, key, default, ns, autoFetch, script, reply, p.state, p.consumed);
    EmptyEntryRead(s, key, default, ns, autoFetch, script, reply);
  }

  /** When the first half of `get_value` leaves `ns` with an empty entry and
      the other entries as they were, the read can only change that entry. */
  lemma EmptyEntryRead(s: State, key: string, default: Option<Value>, ns: string,
                       autoFetch: bool, script: seq<Event>, reply: HttpReply)
    requires Tracked(s) && Prepare(s, ns, script).state.cache == s.cache[ns := map[]]
    ensures GetValue(s, key, default, ns, autoFetch, script, reply).state.cache
         == s.cache[ns := if autoFetch && Ok(reply.status) then reply.body else map[]]
  {
    var p := Prepare(s, ns, script);
    var x: Config := if autoFetch && Ok(reply.status) then reply.body else map[];
    GetValueReadsPrepared(s, key, default, ns, autoFetch, script, reply, p.state, p.consumed);
    UpdateTwice(s.cache, ns, map[], x);
  }

  lemma UpdateTwice(m: map<string, Config>, k: string, a: Config, b: Config)
    ensures m[k := a][k := b] == m[k := b]
  {
  }

  /** The end-to-end first read: the service reports version 5 for
      "application" and the fetch returns {"timeout": "30"}; `get_value`
      returns "30" rather than the default "10", the version is now 5, and
      `init_config` has copied the mapping into the global store. */
  lemma FirstReadWaitsForSync(globals: map<string, Value>, fallback: HttpReply)
    ensures var fetched := map["timeout" := "30"];
            var r := GetValue(Initial(globals), "timeout", Some("10"), "application", false,
                              [Poll(Responded(200, [Change("application", 5, HttpReply(200, fetched))]))], fallback);
            && r.value == Some("30")
            && r.consumed == 1
            && r.state.notifications["application"] == 5
            && r.state.cache["application"] == fetched
            && r.state.globals == globals + fetched
  {
    var fetched := map["timeout" := "30"];
    var s := Initial(globals);
    var c := Change("application", 5, HttpReply(200, fetched));
    var script := [Poll(Responded(200, [c]))];
    assert script == Timeouts(0) + script + [];
    var p := Prepare(s, "application", script);
    PreparedLastFetch(s, "application", 0, [c], 0, []);
    GetValueReadsPrepared(s, "timeout", Some("10"), "application", false, script, fallback, p.state, p.consumed);
    var e := Entered(s, "application");
    var payload := Payload(e.notifications, e.order);
    var asked := e.(trace := e.trace + RetriedRequests(payload, 0) + [PollRequest(payload)]);
    PrepareProcessesChanges(s, "application", 0, [c], []);
    FetchReplacesEntry(asked, "application", c.fetched);
    assert ApplyChanges(asked, [c]) == ApplyChange(asked, c);
  }

  /** `add_callback_funcs` appends its entries after the existing ones (a lone
      object as one entry), duplicates allowed; nothing is removed or
      reordered, so `init_config` stays first, and nothing else changes. */
  lemma AddCallbacksAppends(s: State, arg: CallbackArg)
    ensures var r := AddCallbacks(s, arg);
            && r == s.(callbacks := r.callbacks)
            && s.callbacks <= r.callbacks
            && (arg.Single? ==> r.callbacks == s.callbacks + [arg.entry])
            && (arg.Many? ==> r.callbacks == s.callbacks + arg.entries)
            && (WellFormed(s) ==> WellFormed(r))
  {
  }

  /** `start()` polls first exactly when nothing is cached yet, and that
      poll's first request lists every tracked namespace with its id. */
  lemma StartPollsOnlyWhenCacheEmpty(s: State, script: seq<Event>)
    requires Tracked(s)
    ensures |s.cache| != 0 ==> Start(s, script) == PollResult(s, 0)
    ensures |s.cache| == 0 && script != [] && script[0].Poll? ==>
              var t := Start(s, script).state.trace;
              |t| > |s.trace| && t[|s.trace|] == PollRequest(Payload(s.notifications, s.order))
  {
    if |s.cache| == 0 && script != [] && script[0].Poll? {
      FirstAttemptRequests(s, Payload(s.notifications, s.order), script);
    }
  }

  /** The listener sets `stopped` only once its loop has exited on a stop
      request, and never changes the callbacks. */
  lemma {:induction false} ListenerStopsOnlyAfterStop(s: State, script: seq<Event>)
    requires Tracked(s)
    ensures var r := Listen(s, script);
            && r.stopped == (s.stopped || r.stopping)
            && r.callbacks == s.callbacks
    decreases |script|
  {
    if !s.stopping && script != [] {
      if script[0].StopRequest? {
        ListenerStopsOnlyAfterStop(Stop(s), script[1..]);
      } else {
        var p := LongPoll(s, script);
        ListenerStopsOnlyAfterStop(p.state, script[p.consumed..]);
      }
    }
  }

  /** The listener only appends to the trace. */
  lemma {:induction false} ListenTraceGrows(s: State, script: seq<Event>)
    requires Tracked(s)
    ensures s.trace <= Listen(s, script).trace
    decreases |script|
  {
    if !s.stopping && script != [] {
      if script[0].StopRequest? {
        ListenTraceGrows(Stop(s), script[1..]);
      } else {
        var p := LongPoll(s, script);
        RetriesSendSamePayload(s, Payload(s.notifications, s.order), script);
        ListenTraceGrows(p.state, script[p.consumed..]);
      }
    }
  }

  /** While `_stopping` is false the listener polls: when the next event is
      a poll outcome, the next effect is a long-poll request listing every
      tracked namespace with its id. */
  lemma ListenPollsWhenRunning(s: State, script: seq<Event>)
    requires Tracked(s) && !s.stopping && script != [] && script[0].Poll?
    ensures var t := Listen(s, script).trace;
            |t| > |s.trace| && t[|s.trace|] == PollRequest(Payload(s.notifications, s.order))
  {
    var p := LongPoll(s, script);
    FirstAttemptRequests(s, Payload(s.notifications, s.order), script);
    ListenTraceGrows(p.state, script[p.consumed..]);
  }

  /** Without a stop request the listener never stops: `stopped` and
      `_stopping` stay false however many polls it makes. */
  lemma {:induction false} ListenWithoutStopNeverStops(s: State, script: seq<Event>)
    requires Tracked(s) && !s.stopping && !s.stopped
    requires forall i :: 0 <= i < |script| ==> script[i].Poll?
    ensures !Listen(s, script).stopped && !Listen(s, script).stopping
    decreases |script|
  {
    if script != [] {
      var p := LongPoll(s, script);
      PollsKeepStopping(s, Payload(s.notifications, s.order), script);
      var rest := script[p.consumed..];
      assert forall i :: 0 <= i < |rest| ==> rest[i] == script[p.consumed + i];
      ListenWithoutStopNeverStops(p.state, rest);
    }
  }

  /** A stop that arrives between two polls ends the listener without another
      request. */
  lemma StopBetweenPollsEndsListener(s: State, rest: seq<Event>)
    requires Tracked(s) && !s.stopping
    ensures Listen(s, [StopRequest] + rest) == s.(stopping := true, stopped := true)
  {
    assert ([StopRequest] + rest)[0] == StopRequest;
  }

  /** A stop that lands while the listener's request is in flight ends the
      listener after that request, whatever it ends with: a timeout or an
      error status no longer sleeps, and a 200 is still processed. */
  lemma StopDuringRequestEndsListener(s: State, outcome: PollOutcome, rest: seq<Event>)
    requires Tracked(s) && !s.stopping
    ensures var asked := s.(stopping := true, trace := s.trace + [PollRequest(Payload(s.notifications, s.order))]);
            var polled := if outcome.Responded? && outcome.status == 200 then ApplyChanges(asked, outcome.changes) else asked;
            Listen(s, [PollWithStop(outcome)] + rest) == polled.(stopped := true)
  {
    var script := [PollWithStop(outcome)] + rest;
    assert script[0] == PollWithStop(outcome) && script[1..] == rest;
    StopDuringRequestEndsPoll(s, Payload(s.notifications, s.order), outcome, rest);
  }

  /** A stop during the sleep that follows an error status ends the listener
      after that one request: the rest of the script is never asked for. */
  lemma StopDuringErrorSleepEndsListener(s: State, status: int, changes: seq<Change>, rest: seq<Event>)
    requires Tracked(s) && !s.stopping && status != 200 && status != 304
    ensures Listen(s, [Poll(Responded(status, changes)), StopRequest] + rest)
         == s.(stopping := true, stopped := true,
               trace := s.trace + [PollRequest(Payload(s.notifications, s.order)), Sleep])
  {
    var script := [Poll(Responded(status, changes)), StopRequest] + rest;
    var p := Payload(s.notifications, s.order);
    assert script == [Poll(Responded(status, changes))] + ([StopRequest] + rest);
    ErrorStatusBacksOff(s, p, status, changes, [StopRequest] + rest);
    var slept := s.(trace := s.trace + [PollRequest(p)] + [Sleep]);
    assert LongPoll(s, script) == PollResult(slept, 1);
    assert script[1..] == [StopRequest] + rest;
    StopBetweenPollsEndsListener(slept, rest);
    assert s.trace + [PollRequest(p)] + [Sleep] == s.trace + [PollRequest(p), Sleep];
  }
}

=== FILE: client_state.dfy ===
/** The state of an `ApolloClient` as a value, and one function per operation
    giving the state (and result) that operation produces. The class in
    apollo_client.dfy is proved to follow these functions; the lemmas in
    fetch_facts.dfy, poll_facts.dfy and client_facts.dfy state what they
    guarantee. */
module ClientState {
  import opened ApolloTypes

  /** `_notification_map` (with the insertion order of its keys, which is the
      dict's iteration order), `_cache`, `callback_funcs`, the attributes of the
      global `ApolloData`, the two lifecycle flags, and the trace of effects. */
  datatype State = State(
    notifications: map<string, int>,
    order: seq<string>,
    cache: map<string, Config>,
    callbacks: seq<Callback>,
    globals: map<string, Value>,
    stopping: bool,
    stopped: bool,
    trace: seq<Effect>)

  /** The state after a long poll, and how many scripted events it used. */
  datatype PollResult = PollResult(state: State, consumed: nat)

  /** The state after `_cached_http_get`, and the value it returns. */
  datatype FetchResult = FetchResult(state: State, value: Option<Value>)

  /** The state after `get_value`, the value it returns, and how many scripted
      events its blocking long poll used. */
  datatype GetResult = GetResult(state: State, value: Option<Value>, consumed: nat)

  predicate Distinct(xs: seq<string>)
  {
    forall i, j :: 0 <= i < j < |xs| ==> xs[i] != xs[j]
  }

  /** `order` lists the keys of the notification map once each, and every
      cached namespace is also tracked. */
  predicate Tracked(s: State)
  {
    && Distinct(s.order)
    && (forall k :: k in s.order ==> k in s.notifications)
    && (forall k :: k in s.notifications ==> k in s.order)
    && (forall k :: k in s.cache ==> k in s.notifications)
  }

  /** The invariant of a client: namespaces are tracked and `init_config` is
      the first callback. */
  predicate WellFormed(s: State)
  {
    Tracked(s) && |s.callbacks| > 0 && s.callbacks[0] == InitConfigFn
  }

  /** The state `ApolloClient.__init__` creates, given the global store. */
  function Initial(globals: map<string, Value>): (s: State)
    ensures WellFormed(s)
    ensures s.notifications.Keys == {"application"} && s.cache == map[]
  {
    State(map["application" := -1], ["application"], map[], [InitConfigFn], globals, false, false, [])
  }

  /** `self._notification_map[ns] = nid`: overwrites an existing id in place,
      appends a new key at the end of the iteration order. */
  function Track(s: State, ns: string, nid: int): (r: State)
    ensures Tracked(s) ==> Tracked(r)
    ensures ns in r.notifications && r.notifications[ns] == nid
    ensures forall k :: k != ns ==> (k in r.notifications <==> k in s.notifications)
    ensures forall k :: k != ns && k in s.notifications ==> r.notifications[k] == s.notifications[k]
    ensures r.cache == s.cache && r.callbacks == s.callbacks && r.trace == s.trace
    ensures r.globals == s.globals && r.stopping == s.stopping && r.stopped == s.stopped
    ensures s.order <= r.order
  {
    s.(notifications := s.notifications[ns := nid],
       order := if ns in s.notifications then s.order else s.order + [ns])
  }

  /** The first step of `get_value`: an unseen namespace is tracked with id -1. */
  function Register(s: State, ns: string): (r: State)
    ensures Tracked(s) ==> Tracked(r)
    ensures ns in r.notifications && s.notifications.Keys <= r.notifications.Keys
    ensures r.cache == s.cache && r.callbacks == s.callbacks && r.stopped == s.stopped
  {
    if ns in s.notifications then s else Track(s, ns, -1)
  }

  /** The `notifications` payload `_long_poll` builds: one entry per tracked
      namespace, in the map's iteration order. */
  function Payload(m: map<string, int>, order: seq<string>): (p: seq<Notification>)
    requires forall k :: k in order ==> k in m
    ensures |p| == |order|
    ensures forall i :: 0 <= i < |order| ==> p[i] == Notification(order[i], m[order[i]])
  {
    if order == [] then []
    else
      var last := order[|order| - 1];
      Payload(m, order[..|order| - 1]) + [Notification(last, m[last])]
  }

  /** One callback applied to `data`: `init_config` copies it into the global
      store, a user function is called with it, anything not callable is skipped. */
  function Invoke(s: State, cb: Callback, data: Config): (r: State)
    ensures r.(globals := s.globals, trace := s.trace) == s
    ensures r.globals == if cb == InitConfigFn then s.globals + data else s.globals
    ensures r.trace == if cb.UserFn? then s.trace + [Call(cb.id, data)] else s.trace
  {
    match cb
    case InitConfigFn => s.(globals := s.globals + data)
    case UserFn(id) => s.(trace := s.trace + [Call(id, data)])
    case NotCallable(_) => s
  }

  /** The callbacks of `cbs`, applied in list order. */
  function Dispatch(s: State, cbs: seq<Callback>, data: Config): (r: State)
    ensures r.(globals := s.globals, trace := s.trace) == s
    ensures s.trace <= r.trace
  {
    if cbs == [] then s
    else Invoke(Dispatch(s, cbs[..|cbs| - 1], data), cbs[|cbs| - 1], data)
  }

  /** `_uncached_http_get(ns)`: on status 200 the namespace's entry is replaced
      by the fetched configurations and every callback runs; otherwise only the
      request has happened. */
  function FetchConfig(s: State, ns: string, reply: HttpReply): (r: State)
    ensures r.notifications == s.notifications && r.order == s.order
    ensures r.callbacks == s.callbacks && r.stopping == s.stopping && r.stopped == s.stopped
    ensures r.cache.Keys == if reply.status == 200 then s.cache.Keys + {ns} else s.cache.Keys
    ensures forall k :: k != ns && k in s.cache ==> r.cache[k] == s.cache[k]
  {
    var asked := s.(trace := s.trace + [ConfigsRequest(ns)]);
    if reply.status == 200 then
      Dispatch(asked.(cache := asked.cache[ns := reply.body]), asked.callbacks, reply.body)
    else asked
  }

  /** One iteration of the `for entry in data` loop of `_long_poll`: fetch the
      namespace, then record its new notification id whatever the fetch gave. */
  function ApplyChange(s: State, c: Change): (r: State)
    ensures Tracked(s) ==> Tracked(r)
    ensures r.callbacks == s.callbacks && r.stopping == s.stopping && r.stopped == s.stopped
    ensures s.notifications.Keys <= r.notifications.Keys && s.cache.Keys <= r.cache.Keys
    ensures s.order <= r.order
  {
    Track(FetchConfig(s, c.namespace, c.fetched), c.namespace, c.notificationId)
  }

  /** The whole `for entry in data` loop: the entries in the order listed. */
  function ApplyChanges(s: State, cs: seq<Change>): (r: State)
    ensures Tracked(s) ==> Tracked(r)
    ensures r.callbacks == s.callbacks && r.stopping == s.stopping && r.stopped == s.stopped
    ensures s.notifications.Keys <= r.notifications.Keys && s.cache.Keys <= r.cache.Keys
    ensures s.order <= r.order
  {
    if cs == [] then s
    else ApplyChange(ApplyChanges(s, cs[..|cs| - 1]), cs[|cs| - 1])
  }

  /** Entry `i` of a listing is processed after the entries before it. */
  lemma ApplyChangesPrefix(s: State, cs: seq<Change>, i: nat)
    requires i < |cs|
    ensures ApplyChanges(s, cs[..i + 1]) == ApplyChange(ApplyChanges(s, cs[..i]), cs[i])
  {
    assert cs[..i + 1][..i] == cs[..i];
  }

  /** The state after one iteration of the `while True` loop of
      `_long_poll`, and whether that iteration left the loop. */
  datatype StepResult = StepResult(state: State, done: bool)

  /** One long-poll request sending `payload` and ending with `outcome`. A 304
      returns; a 200 processes its entries and breaks; any other status sleeps
      unless stopping and breaks; a timeout sleeps and goes round again, or
      returns when stopping. `done` says whether the loop is left. */
  function Request(s: State, payload: seq<Notification>, outcome: PollOutcome): (r: StepResult)
    ensures Tracked(s) ==> Tracked(r.state)
    ensures r.state.callbacks == s.callbacks && r.state.stopping == s.stopping && r.state.stopped == s.stopped
    ensures s.notifications.Keys <= r.state.notifications.Keys && s.cache.Keys <= r.state.cache.Keys
    ensures r.done <==> !(outcome.TimedOut? && !s.stopping)
  {
    var asked := s.(trace := s.trace + [PollRequest(payload)]);
    match outcome
    case TimedOut =>
      if s.stopping then StepResult(asked, true)
      else StepResult(asked.(trace := asked.trace + [Sleep]), false)
    case Responded(status, changes) =>
      if status == 304 then StepResult(asked, true)
      else if status == 200 then StepResult(ApplyChanges(asked, changes), true)
      else if s.stopping then StepResult(asked, true)
      else StepResult(asked.(trace := asked.trace + [Sleep]), true)
  }

  /** One iteration of the `while True` loop of `_long_poll`, sending
      `payload`. A `StopRequest` is a concurrent `stop()` before the request,
      after which the loop goes round again. A `PollWithStop` is a request
      during which `stop()` lands, so its outcome is handled while stopping. */
  function Step(s: State, payload: seq<Notification>, e: Event): (r: StepResult)
    ensures Tracked(s) ==> Tracked(r.state)
    ensures r.state.callbacks == s.callbacks && r.state.stopped == s.stopped
    ensures r.state.stopping == (s.stopping || !e.Poll?)
    ensures s.notifications.Keys <= r.state.notifications.Keys && s.cache.Keys <= r.state.cache.Keys
    ensures r.done <==> !e.StopRequest? && !(e.Poll? && e.outcome.TimedOut? && !s.stopping)
  {
    match e
    case StopRequest => StepResult(Stop(s), false)
    case Poll(outcome) => Request(s, payload, outcome)
    case PollWithStop(outcome) => Request(Stop(s), payload, outcome)
  }

  /** The whole `while True` loop of `_long_poll`: steps until one leaves the
      loop, every attempt sending the same `payload`. */
  function Attempts(s: State, payload: seq<Notification>, script: seq<Event>): (r: PollResult)
    ensures r.consumed <= |script| && (script != [] ==> 1 <= r.consumed)
    ensures Tracked(s) ==> Tracked(r.state)
    ensures r.state.callbacks == s.callbacks && r.state.stopped == s.stopped
    ensures s.notifications.Keys <= r.state.notifications.Keys && s.cache.Keys <= r.state.cache.Keys
    decreases |script|
  {
    if script == [] then PollResult(s, 0)
    else
      var step := Step(s, payload, script[0]);
      if step.done then PollResult(step.state, 1)
      else
        var rest := Attempts(step.state, payload, script[1..]);
        PollResult(rest.state, rest.consumed + 1)
  }

  /** `_long_poll()`: build the payload once, then run the attempts. */
  function LongPoll(s: State, script: seq<Event>): (r: PollResult)
    requires Tracked(s)
    ensures r.consumed <= |script| && (script != [] ==> 1 <= r.consumed)
    ensures Tracked(r.state)
    ensures r.state.callbacks == s.callbacks && r.state.stopped == s.stopped
    ensures s.notifications.Keys <= r.state.notifications.Keys && s.cache.Keys <= r.state.cache.Keys
  {
    Attempts(s, Payload(s.notifications, s.order), script)
  }

  /** requests' `Response.ok`: false exactly for 4xx and 5xx statuses. */
  predicate Ok(status: int)
  {
    !(400 <= status < 600)
  }

  /** `_cached_http_get(key, default, ns)`: an ok reply replaces the entry and is
      read; otherwise the existing entry is read. */
  function CachedGet(s: State, key: string, default: Option<Value>, ns: string, reply: HttpReply): (r: FetchResult)
    requires ns in s.cache
    ensures r.state.(cache := s.cache, trace := s.trace) == s
    ensures r.state.cache.Keys == s.cache.Keys
  {
    var asked := s.(trace := s.trace + [ConfigFilesRequest(ns)]);
    if Ok(reply.status) then
      FetchResult(asked.(cache := asked.cache[ns := reply.body]), Lookup(reply.body, key, default))
    else FetchResult(asked, Lookup(s.cache[ns], key, default))
  }

  /** The first half of `get_value`: register the namespace; a namespace
      absent from the cache gets an empty entry and one blocking long poll. */
  function Prepare(s: State, ns: string, script: seq<Event>): (r: PollResult)
    requires Tracked(s)
    ensures Tracked(r.state)
    ensures ns in r.state.notifications && ns in r.state.cache
    ensures s.notifications.Keys <= r.state.notifications.Keys && s.cache.Keys <= r.state.cache.Keys
    ensures r.state.callbacks == s.callbacks && r.state.stopped == s.stopped
  {
    var known := Register(s, ns);
    if ns in known.cache then PollResult(known, 0)
    else LongPoll(Entered(s, ns), script)
  }

  /** The state the blocking poll of `get_value` starts from when `ns` is not
      cached: `ns` registered and given an empty entry. */
  function Entered(s: State, ns: string): (r: State)
    ensures Tracked(s) ==> Tracked(r)
    ensures r.notifications == Register(s, ns).notifications && r.order == Register(s, ns).order
    ensures r.cache == s.cache[ns := map[]]
    ensures r.globals == s.globals && r.trace == s.trace
    ensures r.callbacks == s.callbacks && r.stopping == s.stopping && r.stopped == s.stopped
  {
    var known := Register(s, ns);
    known.(cache := known.cache[ns := map[]])
  }

  /** What `get_value` returns when `key` is missing from the entry `entry`
      it reads: with auto-fetch and an ok reply, the lookup in the replacement;
      otherwise the lookup in `entry` again, which gives the default. */
  function MissValue(entry: Config, key: string, default: Option<Value>, autoFetch: bool, reply: HttpReply): Option<Value>
  {
    if autoFetch && Ok(reply.status) then Lookup(reply.body, key, default)
    else Lookup(entry, key, default)
  }

  /** The second half of `get_value`: read the entry, falling back to
      `_cached_http_get` or to the default. */
  function Read(t: State, key: string, default: Option<Value>, ns: string, autoFetch: bool, reply: HttpReply): (r: FetchResult)
    requires ns in t.cache
    ensures r.state.(cache := t.cache, trace := t.trace) == t
    ensures key in t.cache[ns] ==> r == FetchResult(t, Some(t.cache[ns][key]))
    ensures key !in t.cache[ns] ==> r.value == MissValue(t.cache[ns], key, default, autoFetch, reply)
    ensures r.state.cache == if key !in t.cache[ns] && autoFetch && Ok(reply.status) then t.cache[ns := reply.body] else t.cache
  {
    if key in t.cache[ns] then FetchResult(t, Some(t.cache[ns][key]))
    else if autoFetch then CachedGet(t, key, default, ns, reply)
    else FetchResult(t, default)
  }

  /** `get_value(key, default, ns, auto_fetch)`: `Prepare`, then `Read`. */
  function GetValue(s: State, key: string, default: Option<Value>, ns: string, autoFetch: bool,
                    script: seq<Event>, reply: HttpReply): (r: GetResult)
    requires Tracked(s)
    ensures Tracked(r.state)
    ensures ns in r.state.notifications && ns in r.state.cache
    ensures s.notifications.Keys <= r.state.notifications.Keys && s.cache.Keys <= r.state.cache.Keys
    ensures r.state.callbacks == s.callbacks && r.state.stopped == s.stopped
  {
    var polled := Prepare(s, ns, script);
    var f := Read(polled.state, key, default, ns, autoFetch, reply);
    GetResult(f.state, f.value, polled.consumed)
  }

  /** The entries `add_callback_funcs` appends: a list or tuple as it is, any
      other object as a one-element list. */
  function Entries(arg: CallbackArg): (r: seq<Callback>)
    ensures arg.Many? ==> r == arg.entries
    ensures arg.Single? ==> r == [arg.entry]
  {
    match arg
    case Many(fs) => fs
    case Single(f) => [f]
  }

  /** `add_callback_funcs(arg)`. */
  function AddCallbacks(s: State, arg: CallbackArg): (r: State)
    ensures r == s.(callbacks := r.callbacks)
    ensures s.callbacks <= r.callbacks && r.callbacks[|s.callbacks|..] == Entries(arg)
    ensures WellFormed(s) ==> WellFormed(r)
  {
    s.(callbacks := s.callbacks + Entries(arg))
  }

  /** `stop()`. */
  function Stop(s: State): (r: State)
    ensures r.stopping
    ensures r.(stopping := s.stopping) == s
  {
    s.(stopping := true)
  }

  /** The part of `start()` that is not thread plumbing: a blocking first poll
      when the cache is empty. */
  function Start(s: State, script: seq<Event>): (r: PollResult)
    requires Tracked(s)
    ensures Tracked(r.state) && r.consumed <= |script|
    ensures |s.cache| != 0 ==> r == PollResult(s, 0)
    ensures |s.cache| == 0 && script != [] ==> 1 <= r.consumed
    ensures r.state.callbacks == s.callbacks && r.state.stopped == s.stopped
  {
    if |s.cache| == 0 then LongPoll(s, script) else PollResult(s, 0)
  }

  /** `_listener()` run against a finite script: poll while not stopping; once
      the loop has exited on a stop, `stopped` becomes true. When the script
      runs out first, the thread is still waiting and `stopped` is unchanged. */
  function Listen(s: State, script: seq<Event>): (r: State)
    requires Tracked(s)
    ensures Tracked(r)
    ensures s.notifications.Keys <= r.notifications.Keys && s.cache.Keys <= r.cache.Keys
    decreases |script|
  {
    if s.stopping then s.(stopped := true)
    else if script == [] then s
    else if script[0].StopRequest? then Listen(Stop(s), script[1..])
    else
      var p := LongPoll(s, script);
      Listen(p.state, script[p.consumed..])
  }
}

=== FILE: fetch_facts.dfy ===
/** What a configuration fetch does: the cache entry is replaced wholesale and
    the callbacks run once each, in list order, with the new mapping. */
module FetchFacts {
  import opened ApolloTypes
  import opened ClientState

  /** The user-function calls a dispatch of `cbs` makes, read from the list
      front to back: one per `UserFn`, none for `init_config` or a
      non-callable entry. */
  function Calls(cbs: seq<Callback>, data: Config): seq<Effect>
  {
    if cbs == [] then []
    else (if cbs[0].UserFn? then [Call(cbs[0].id, data)] else []) + Calls(cbs[1..], data)
  }

  lemma {:induction false} CallsAppend(a: seq<Callback>, b: seq<Callback>, data: Config)
    ensures Calls(a + b, data) == Calls(a, data) + Calls(b, data)
  {
    if a == [] {
      assert a + b == b;
    } else {
      var head := if a[0].UserFn? then [Call(a[0].id, data)] else [];
      assert (a + b)[0] == a[0] && (a + b)[1..] == a[1..] + b;
      CallsAppend(a[1..], b, data);
      assert Calls(a + b, data) == head + (Calls(a[1..], data) + Calls(b, data));
      assert Calls(a, data) == head + Calls(a[1..], data);
    }
  }

  /** Every effect of a dispatch is a call with `data`, and there is exactly
      one per user function in the list. */
  lemma {:induction false} CallsShape(cbs: seq<Callback>, data: Config)
    ensures forall i :: 0 <= i < |Calls(cbs, data)| ==> Calls(cbs, data)[i].Call? && Calls(cbs, data)[i].data == data
    ensures (forall j :: 0 <= j < |cbs| ==> cbs[j].UserFn?) ==>
              |Calls(cbs, data)| == |cbs| &&
              forall j :: 0 <= j < |cbs| ==> Calls(cbs, data)[j] == Call(cbs[j].id, data)
  {
    if cbs != [] {
      CallsShape(cbs[1..], data);
    }
  }

  /** Dispatching runs the callbacks in list order: the user functions are
      called once each with `data`. */
  lemma {:induction false} DispatchTrace(s: State, cbs: seq<Callback>, data: Config)
    ensures Dispatch(s, cbs, data).trace == s.trace + Calls(cbs, data)
  {
    if cbs != [] {
      var pre, last := cbs[..|cbs| - 1], cbs[|cbs| - 1];
      DispatchTrace(s, pre, data);
      assert cbs == pre + [last];
      CallsAppend(pre, [last], data);
      assert Calls([last], data) == if last.UserFn? then [Call(last.id, data)] else [];
    }
  }

  /** `init_config`, wherever it stands in the list, merges `data` into the
      global store; without it the store is untouched. */
  lemma {:induction false} DispatchGlobals(s: State, cbs: seq<Callback>, data: Config)
    ensures Dispatch(s, cbs, data).globals == if InitConfigFn in cbs then s.globals + data else s.globals
  {
    if cbs != [] {
      var pre, last := cbs[..|cbs| - 1], cbs[|cbs| - 1];
      DispatchGlobals(s, pre, data);
      assert cbs == pre + [last];
      if last == InitConfigFn && InitConfigFn in pre {
        assert s.globals + data + data == s.globals + data;
      }
    }
  }

  /** `_uncached_http_get` with status 200: the namespace's entry becomes
      exactly the fetched mapping (keys absent from it are gone), the other
      entries and the notification map are untouched, and the callbacks run
      once each in list order with that mapping. */
  lemma FetchReplacesEntry(s: State, ns: string, reply: HttpReply)
    requires reply.status == 200
    ensures var r := FetchConfig(s, ns, reply);
            && r.cache == s.cache[ns := reply.body]
            && r.notifications == s.notifications && r.order == s.order
            && r.trace == s.trace + [ConfigsRequest(ns)] + Calls(s.callbacks, reply.body)
            && r.globals == if InitConfigFn in s.callbacks then s.globals + reply.body else s.globals
  {
    var asked := s.(trace := s.trace + [ConfigsRequest(ns)]);
    DispatchTrace(asked.(cache := asked.cache[ns := reply.body]), asked.callbacks, reply.body);
    DispatchGlobals(asked.(cache := asked.cache[ns := reply.body]), asked.callbacks, reply.body);
  }

  /** `_uncached_http_get` with any other status: only the request happened. */
  lemma FailedFetchChangesNothing(s: State, ns: string, reply: HttpReply)
    requires reply.status != 200
    ensures FetchConfig(s, ns, reply) == s.(trace := s.trace + [ConfigsRequest(ns)])
  {
  }

  /** Two user callbacks registered after `init_config`, in the order A, B,
      are called A then B, each once, with the same fetched mapping. */
  lemma CallbacksRunInRegistrationOrder(s: State, ns: string, a: nat, b: nat, data: Config)
    requires s.callbacks == [InitConfigFn, UserFn(a), UserFn(b)]
    ensures var r := FetchConfig(s, ns, HttpReply(200, data));
            && r.trace == s.trace + [ConfigsRequest(ns), Call(a, data), Call(b, data)]
            && r.globals == s.globals + data
            && r.cache[ns] == data
  {
    FetchReplacesEntry(s, ns, HttpReply(200, data));
    var cbs := s.callbacks;
    assert cbs[1..] == [UserFn(a), UserFn(b)] && cbs[1..][1..] == [UserFn(b)] && cbs[1..][1..][1..] == [];
    assert Calls(cbs[1..][1..], data) == [Call(b, data)];
    assert Calls(cbs[1..], data) == [Call(a, data), Call(b, data)];
  }
}

=== FILE: global_var.dfy ===
/** The process-wide attribute store `ApolloData` and the built-in callback
    `init_config` that copies a namespace's mapping into it. */
module GlobalStore {
  import opened ApolloTypes

  /** `GlobalVar`: attributes set at run time, on top of the class attribute `name`. */
  class GlobalVar {
    var attrs: map<string, Value>

    constructor ()
      ensures attrs == map["name" := "best_apollo_client"]
    {
      attrs := map["name" := "best_apollo_client"];
    }

    /** `setattr(self, name, value)`. */
    method Set(name: string, value: Value)
      modifies this
      ensures attrs == old(attrs)[name := value]
    {
      attrs := attrs[name := value];
    }

    /** `getattr(self, name, default_value)`. */
    function Get(name: string, default: Option<Value>): (r: Option<Value>)
      reads this
      ensures name in attrs ==> r == Some(attrs[name])
      ensures name !in attrs ==> r == default
    {
      Lookup(attrs, name, default)
    }
  }

  /** `init_config(apollo_data)`: every key of `data` becomes an attribute of the
      store, overwriting an earlier value; other attributes are kept. The source
      visits the keys in dict order; since the keys are distinct, any order gives
      the same store. */
  method InitConfig(store: GlobalVar, data: Config)
    modifies store
    ensures store.attrs == old(store.attrs) + data
    ensures forall k, default :: k in data ==> store.Get(k, default) == Some(data[k])
    ensures forall k, default :: k !in data ==> store.Get(k, default) == Lookup(old(store.attrs), k, default)
  {
    var pending := data.Keys;
    while pending != {}
      invariant pending <= data.Keys
      invariant store.attrs == old(store.attrs) + map k | k in data && k !in pending :: data[k]
      decreases pending
    {
      var k :| k in pending;
      store.Set(k, data[k]);
      pending := pending - {k};
    }
    assert (map k | k in data && k !in pending :: data[k]) == data;
  }
}

=== FILE: poll_facts.dfy ===
/** What one `_long_poll` does to the notification map, the cache and the
    trace, outcome by outcome. */
module PollFacts {
  import opened ApolloTypes
  import opened ClientState
  import opened FetchFacts

  /** Processing two listings one after the other is processing their
      concatenation. */
  lemma {:induction false} ApplyChangesAppend(s: State, a: seq<Change>, b: seq<Change>)
    ensures ApplyChanges(s, a + b) == ApplyChanges(ApplyChanges(s, a), b)
  {
    if b == [] {
      assert a + b == a;
    } else {
      var pre := b[..|b| - 1];
      assert (a + b)[..|a + b| - 1] == a + pre;
      assert (a + b)[|a + b| - 1] == b[|b| - 1];
      ApplyChangesAppend(s, a, pre);
    }
  }

  /** A namespace that a 200 response does not list keeps both its
      notification id and its cache entry (present or absent alike). */
  lemma {:induction false} UnlistedNamespaceUntouched(s: State, cs: seq<Change>, ns: string)
    requires forall i :: 0 <= i < |cs| ==> cs[i].namespace != ns
    ensures var r := ApplyChanges(s, cs);
            && (ns in r.notifications <==> ns in s.notifications)
            && (ns in s.notifications ==> r.notifications[ns] == s.notifications[ns])
            && (ns in r.cache <==> ns in s.cache)
            && (ns in s.cache ==> r.cache[ns] == s.cache[ns])
  {
    if cs != [] {
      UnlistedNamespaceUntouched(s, cs[..|cs| - 1], ns);
    }
  }

  /** A namespace whose every listed entry failed to fetch keeps its cache
      entry (present or absent alike), whatever ids were recorded for it. */
  lemma {:induction false} NoSuccessfulFetchKeepsEntry(s: State, cs: seq<Change>, ns: string)
    requires forall i :: 0 <= i < |cs| && cs[i].namespace == ns ==> cs[i].fetched.status != 200
    ensures var r := ApplyChanges(s, cs);
            && (ns in r.cache <==> ns in s.cache)
            && (ns in s.cache ==> r.cache[ns] == s.cache[ns])
  {
    if cs != [] {
      var pre, last := cs[..|cs| - 1], cs[|cs| - 1];
      NoSuccessfulFetchKeepsEntry(s, pre, ns);
      var before := ApplyChanges(s, pre);
      if last.namespace == ns {
        FailedFetchChangesNothing(before, ns, last.fetched);
      }
    }
  }

  /** A listed namespace ends with the id of its last entry, whether or not
      that entry's fetch succeeded, with no comparison against the old id. Its
      cache entry is that entry's fetched mapping when the fetch returned 200,
      and otherwise whatever it was just before that entry was processed. */
  lemma LastListedEntryWins(s: State, cs: seq<Change>, i: nat)
    requires i < |cs|
    requires forall j :: i < j < |cs| ==> cs[j].namespace != cs[i].namespace
    ensures var r, ns := ApplyChanges(s, cs), cs[i].namespace;
            && ns in r.notifications && r.notifications[ns] == cs[i].notificationId
            && (cs[i].fetched.status == 200 ==> ns in r.cache && r.cache[ns] == cs[i].fetched.body)
            && (cs[i].fetched.status != 200 ==>
                  var before := ApplyChanges(s, cs[..i]);
                  (ns in r.cache <==> ns in before.cache) && (ns in before.cache ==> r.cache[ns] == before.cache[ns]))
  {
    LastListedId(s, cs, i);
    LastListedCache(s, cs, i);
  }

  lemma {:induction false} LastListedId(s: State, cs: seq<Change>, i: nat)
    requires i < |cs|
    requires forall j :: i < j < |cs| ==> cs[j].namespace != cs[i].namespace
    ensures var r, ns := ApplyChanges(s, cs), cs[i].namespace;
            ns in r.notifications && r.notifications[ns] == cs[i].notificationId
  {
    var pre, last := cs[..|cs| - 1], cs[|cs| - 1];
    var before := ApplyChanges(s, pre);
    if i == |cs| - 1 {
      ApplyChangeEntry(before, last);
    } else {
      assert pre[i] == cs[i] && forall j :: i < j < |pre| ==> pre[j] == cs[j];
      LastListedId(s, pre, i);
      OtherEntryUntouched(before, last, cs[i].namespace);
    }
  }

  lemma {:induction false} LastListedCache(s: State, cs: seq<Change>, i: nat)
    requires i < |cs|
    requires forall j :: i < j < |cs| ==> cs[j].namespace != cs[i].namespace
    ensures var r, ns, before := ApplyChanges(s, cs), cs[i].namespace, ApplyChanges(s, cs[..i]);
            && (cs[i].fetched.status == 200 ==> ns in r.cache && r.cache[ns] == cs[i].fetched.body)
            && (cs[i].fetched.status != 200 ==>
                  (ns in r.cache <==> ns in before.cache) && (ns in before.cache ==> r.cache[ns] == before.cache[ns]))
  {
    var pre, last := cs[..|cs| - 1], cs[|cs| - 1];
    var before := ApplyChanges(s, pre);
    if i == |cs| - 1 {
      ApplyChangeEntry(before, last);
    } else {
      assert pre[i] == cs[i] && pre[..i] == cs[..i] && forall j :: i < j < |pre| ==> pre[j] == cs[j];
      LastListedCache(s, pre, i);
      OtherEntryUntouched(before, last, cs[i].namespace);
    }
  }

  /** An entry for another namespace leaves this one's id and cache entry
      as they were. */
  lemma OtherEntryUntouched(s: State, c: Change, ns: string)
    requires c.namespace != ns
    ensures var r := ApplyChange(s, c);
            && (ns in r.notifications <==> ns in s.notifications)
            && (ns in s.notifications ==> r.notifications[ns] == s.notifications[ns])
            && (ns in r.cache <==> ns in s.cache)
            && (ns in s.cache ==> r.cache[ns] == s.cache[ns])
  {
    UnlistedNamespaceUntouched(s, [c], ns);
    assert [c][..0] == [] && [c][0] == c;
  }

  /** One entry: its namespace gets the entry's id, and its cache entry is
      the fetched mapping on a 200 and otherwise stays as it was. */
  lemma ApplyChangeEntry(s: State, c: Change)
    ensures var r, ns := ApplyChange(s, c), c.namespace;
            && ns in r.notifications && r.notifications[ns] == c.notificationId
            && (c.fetched.status == 200 ==> ns in r.cache && r.cache[ns] == c.fetched.body)
            && (c.fetched.status != 200 ==> (ns in r.cache <==> ns in s.cache) && (ns in s.cache ==> r.cache[ns] == s.cache[ns]))
  {
    if c.fetched.status == 200 {
      FetchReplacesEntry(s, c.namespace, c.fetched);
    } else {
      FailedFetchChangesNothing(s, c.namespace, c.fetched);
    }
  }

  /** The effects of processing one entry of a 200 response: its fetch
      request, followed by its callback calls when the fetch returned 200. */
  function EntryEffects(cbs: seq<Callback>, c: Change): seq<Effect>
  {
    [ConfigsRequest(c.namespace)] + (if c.fetched.status == 200 then Calls(cbs, c.fetched.body) else [])
  }

  /** The effects of processing the entries of a 200 response, in the order
      listed. */
  function ChangeEffects(cbs: seq<Callback>, cs: seq<Change>): seq<Effect>
  {
    if cs == [] then []
    else ChangeEffects(cbs, cs[..|cs| - 1]) + EntryEffects(cbs, cs[|cs| - 1])
  }

  lemma ApplyChangeTrace(s: State, c: Change)
    ensures ApplyChange(s, c).trace == s.trace + EntryEffects(s.callbacks, c)
  {
    var fetched := FetchConfig(s, c.namespace, c.fetched);
    if c.fetched.status == 200 {
      FetchReplacesEntry(s, c.namespace, c.fetched);
      AppendAssoc(s.trace, [ConfigsRequest(c.namespace)], Calls(s.callbacks, c.fetched.body));
    } else {
      FailedFetchChangesNothing(s, c.namespace, c.fetched);
    }
    assert ApplyChange(s, c).trace == fetched.trace;
  }

  /** Processing the last entry of a listing appends its effects to those
      of the entries before it. */
  lemma ApplyChangesLast(s: State, cs: seq<Change>)
    requires cs != []
    ensures ApplyChanges(s, cs).trace
         == ApplyChanges(s, cs[..|cs| - 1]).trace + EntryEffects(s.callbacks, cs[|cs| - 1])
  {
    var before := ApplyChanges(s, cs[..|cs| - 1]);
    ApplyChangeTrace(before, cs[|cs| - 1]);
  }

  /** Entries are processed in the order listed: the trace grows by their
      fetches and callback calls in exactly that order. */
  lemma {:induction false} ApplyChangesTrace(s: State, cs: seq<Change>)
    ensures ApplyChanges(s, cs).trace == s.trace + ChangeEffects(s.callbacks, cs)
  {
    if cs != [] {
      var pre := cs[..|cs| - 1];
      ApplyChangesTrace(s, pre);
      ApplyChangesLast(s, cs);
      var earlier, added := ChangeEffects(s.callbacks, pre), EntryEffects(s.callbacks, cs[|cs| - 1]);
      assert ChangeEffects(s.callbacks, cs) == earlier + added;
      AppendAssoc(s.trace, earlier, added);
    }
  }

  lemma AppendAssoc(a: seq<Effect>, b: seq<Effect>, c: seq<Effect>)
    ensures (a + b) + c == a + (b + c)
  {
  }

  predicate NoPollRequests(es: seq<Effect>)
  {
    forall i :: 0 <= i < |es| ==> !es[i].PollRequest?
  }

  /** Processing a 200 response makes no further long-poll request. */
  lemma {:induction false} ChangeEffectsMakeNoPolls(cbs: seq<Callback>, cs: seq<Change>)
    ensures NoPollRequests(ChangeEffects(cbs, cs))
  {
    if cs != [] {
      var pre, last := cs[..|cs| - 1], cs[|cs| - 1];
      ChangeEffectsMakeNoPolls(cbs, pre);
      CallsShape(cbs, last.fetched.body);
      var a, b := ChangeEffects(cbs, pre), EntryEffects(cbs, last);
      assert NoPollRequests(b);
      assert forall i :: 0 <= i < |a + b| ==> (a + b)[i] == if i < |a| then a[i] else b[i - |a|];
    }
  }

  /** One iteration of the loop only appends to the trace, and every request
      it appends carries `p`. */
  lemma StepSendsPayload(s: State, p: seq<Notification>, e: Event)
    ensures var r := Step(s, p, e).state;
            && s.trace <= r.trace
            && forall i :: |s.trace| <= i < |r.trace| && r.trace[i].PollRequest? ==> r.trace[i].notifications == p
  {
    match e
    case StopRequest =>
    case Poll(outcome) => RequestSendsPayload(s, p, outcome);
    case PollWithStop(outcome) => RequestSendsPayload(Stop(s), p, outcome);
  }

  /** One request only appends to the trace, and the only long-poll request
      it appends is its own, carrying `p`. */
  lemma RequestSendsPayload(s: State, p: seq<Notification>, outcome: PollOutcome)
    ensures var r := Request(s, p, outcome).state;
            && s.trace <= r.trace
            && forall i :: |s.trace| <= i < |r.trace| && r.trace[i].PollRequest? ==> r.trace[i].notifications == p
  {
    if outcome.Responded? && outcome.status == 200 {
      ChangesSendNoPolls(s.(trace := s.trace + [PollRequest(p)]), outcome.changes);
    }
  }

  /** Processing the entries of a 200 response only appends to the trace,
      and none of what it appends is a long-poll request. */
  lemma ChangesSendNoPolls(s: State, cs: seq<Change>)
    ensures var r := ApplyChanges(s, cs);
            && s.trace <= r.trace
            && forall i :: |s.trace| <= i < |r.trace| ==> !r.trace[i].PollRequest?
  {
    var r := ApplyChanges(s, cs);
    var added := ChangeEffects(s.callbacks, cs);
    ApplyChangesTrace(s, cs);
    ChangeEffectsMakeNoPolls(s.callbacks, cs);
    assert forall i :: |s.trace| <= i < |r.trace| ==> r.trace[i] == added[i - |s.trace|];
  }

  /** Every long-poll request of one `_long_poll`, first attempt and retries
      alike, carries the payload that was built before the loop; the trace
      only grows. */
  lemma {:induction false} RetriesSendSamePayload(s: State, p: seq<Notification>, script: seq<Event>)
    ensures var r := Attempts(s, p, script).state;
            && s.trace <= r.trace
            && forall i :: |s.trace| <= i < |r.trace| && r.trace[i].PollRequest? ==> r.trace[i].notifications == p
    decreases |script|
  {
    if script != [] {
      var step := Step(s, p, script[0]);
      StepSendsPayload(s, p, script[0]);
      if !step.done {
        RetriesSendSamePayload(step.state, p, script[1..]);
        var r := Attempts(s, p, script).state;
        assert r == Attempts(step.state, p, script[1..]).state;
        assert forall i :: |s.trace| <= i < |step.state.trace| ==> r.trace[i] == step.state.trace[i];
      }
    }
  }

  /** The first event being a request's outcome, the long poll's first effect
      is the request with the payload. */
  lemma FirstAttemptRequests(s: State, p: seq<Notification>, script: seq<Event>)
    requires script != [] && !script[0].StopRequest?
    ensures var r := Attempts(s, p, script).state;
            |r.trace| > |s.trace| && r.trace[|s.trace|] == PollRequest(p)
  {
    var step := Step(s, p, script[0]);
    StepRequestsFirst(s, p, script[0]);
    if !step.done {
      RetriesSendSamePayload(step.state, p, script[1..]);
      assert Attempts(s, p, script).state == Attempts(step.state, p, script[1..]).state;
    }
  }

  /** An iteration that takes a request's outcome starts with the request. */
  lemma StepRequestsFirst(s: State, p: seq<Notification>, e: Event)
    requires !e.StopRequest?
    ensures var r := Step(s, p, e).state;
            |r.trace| > |s.trace| && r.trace[|s.trace|] == PollRequest(p)
  {
    var t := if e.Poll? then s else Stop(s);
    var asked := t.(trace := t.trace + [PollRequest(p)]);
    if e.outcome.Responded? && e.outcome.status == 200 {
      ApplyChangesTrace(asked, e.outcome.changes);
    }
  }

  /** An event other than a 200 response. */
  predicate NoChangeReported(e: Event)
  {
    e.StopRequest? || !(e.outcome.Responded? && e.outcome.status == 200)
  }

  /** Without a 200 response (only 304s, other statuses, timeouts and stops),
      a long poll leaves the notification map, its order, the cache, the
      callbacks and the global store exactly as they were. */
  lemma {:induction false} NoChangeKeepsData(s: State, p: seq<Notification>, script: seq<Event>)
    requires forall i :: 0 <= i < |script| ==> NoChangeReported(script[i])
    ensures var r := Attempts(s, p, script).state;
            r == s.(stopping := r.stopping, trace := r.trace)
    decreases |script|
  {
    if script != [] {
      assert NoChangeReported(script[0]);
      assert forall i :: 0 <= i < |script[1..]| ==> script[1..][i] == script[i + 1];
      match script[0]
      case StopRequest =>
        NoChangeKeepsData(s.(stopping := true), p, script[1..]);
      case Poll(outcome) =>
        var asked := s.(trace := s.trace + [PollRequest(p)]);
        if outcome.TimedOut? && !s.stopping {
          NoChangeKeepsData(asked.(trace := asked.trace + [Sleep]), p, script[1..]);
        }
      case PollWithStop(outcome) =>
    }
  }

  /** A stop that lands while a request is in flight ends the poll with that
      request, whatever its outcome: nothing sleeps, and only a 200's entries
      are processed. */
  lemma StopDuringRequestEndsPoll(s: State, p: seq<Notification>, outcome: PollOutcome, rest: seq<Event>)
    ensures var asked := s.(stopping := true, trace := s.trace + [PollRequest(p)]);
            var polled := if outcome.Responded? && outcome.status == 200 then ApplyChanges(asked, outcome.changes) else asked;
            Attempts(s, p, [PollWithStop(outcome)] + rest) == PollResult(polled, 1)
  {
    assert ([PollWithStop(outcome)] + rest)[0] == PollWithStop(outcome);
  }

  /** A 200 ends the poll after processing its entries: one request, then
      the entries. */
  lemma ChangedEndsPoll(s: State, p: seq<Notification>, changes: seq<Change>, rest: seq<Event>)
    ensures Attempts(s, p, [Poll(Responded(200, changes))] + rest)
         == PollResult(ApplyChanges(s.(trace := s.trace + [PollRequest(p)]), changes), 1)
  {
    assert ([Poll(Responded(200, changes))] + rest)[0] == Poll(Responded(200, changes));
  }

  /** `k` long-poll requests in a row that time out. */
  function Timeouts(k: nat): (r: seq<Event>)
    ensures |r| == k && forall i :: 0 <= i < k ==> r[i] == Poll(TimedOut)
  {
    if k == 0 then [] else [Poll(TimedOut)] + Timeouts(k - 1)
  }

  /** What `k` timed-out attempts leave in the trace: each request, then its
      backoff sleep. */
  function RetriedRequests(p: seq<Notification>, k: nat): seq<Effect>
  {
    if k == 0 then [] else [PollRequest(p), Sleep] + RetriedRequests(p, k - 1)
  }

  /** After `k` timeouts while not stopping, the loop retries with the same
      payload each time, and a 200 then ends it after processing its entries. */
  lemma {:induction false} ChangedAfterTimeouts(s: State, p: seq<Notification>, k: nat,
                                                changes: seq<Change>, rest: seq<Event>)
    requires k == 0 || !s.stopping
    ensures Attempts(s, p, Timeouts(k) + [Poll(Responded(200, changes))] + rest)
         == PollResult(ApplyChanges(s.(trace := s.trace + RetriedRequests(p, k) + [PollRequest(p)]), changes), k + 1)
    decreases k
  {
    var last := [Poll(Responded(200, changes))] + rest;
    if k == 0 {
      assert Timeouts(0) + [Poll(Responded(200, changes))] + rest == last;
      assert s.trace + RetriedRequests(p, 0) == s.trace;
      ChangedEndsPoll(s, p, changes, rest);
    } else {
      var slept := s.(trace := s.trace + [PollRequest(p), Sleep]);
      var tail := Timeouts(k - 1) + [Poll(Responded(200, changes))] + rest;
      assert Timeouts(k) + [Poll(Responded(200, changes))] + rest == [Poll(TimedOut)] + tail;
      TimeoutSleepsAndRetries(s, p, tail);
      ChangedAfterTimeouts(slept, p, k - 1, changes, rest);
      AppendAssoc(s.trace, [PollRequest(p), Sleep], RetriedRequests(p, k - 1));
    }
  }

  /** A 304 ends the poll at once: only the request happened. */
  lemma NotModifiedEndsPoll(s: State, p: seq<Notification>, changes: seq<Change>, rest: seq<Event>)
    ensures Attempts(s, p, [Poll(Responded(304, changes))] + rest)
         == PollResult(s.(trace := s.trace + [PollRequest(p)]), 1)
  {
  }

  /** Any status other than 200 and 304 ends the poll after one backoff
      sleep, and without sleeping when a stop was requested. */
  lemma ErrorStatusBacksOff(s: State, p: seq<Notification>, status: int, changes: seq<Change>, rest: seq<Event>)
    requires status != 200 && status != 304
    ensures Attempts(s, p, [Poll(Responded(status, changes))] + rest)
         == PollResult(s.(trace := s.trace + [PollRequest(p)] + (if s.stopping then [] else [Sleep])), 1)
  {
  }

  /** A timeout while a stop is requested ends the poll: only the request
      happened. */
  lemma TimeoutWhileStoppingEndsPoll(s: State, p: seq<Notification>, rest: seq<Event>)
    requires s.stopping
    ensures Attempts(s, p, [Poll(TimedOut)] + rest) == PollResult(s.(trace := s.trace + [PollRequest(p)]), 1)
  {
    assert ([Poll(TimedOut)] + rest)[0] == Poll(TimedOut);
  }

  /** Otherwise a timeout sleeps and retries with the same payload. */
  lemma TimeoutSleepsAndRetries(s: State, p: seq<Notification>, rest: seq<Event>)
    requires !s.stopping
    ensures var again := Attempts(s.(trace := s.trace + [PollRequest(p), Sleep]), p, rest);
            Attempts(s, p, [Poll(TimedOut)] + rest) == PollResult(again.state, again.consumed + 1)
  {
    var script := [Poll(TimedOut)] + rest;
    assert script[0] == Poll(TimedOut);
    assert script[1..] == rest;
    assert s.trace + [PollRequest(p)] + [Sleep] == s.trace + [PollRequest(p), Sleep];
  }

  /** A stop requested during the sleep after a timeout does not prevent the
      next request: the retry loop sends it before it looks at the flag. */
  lemma StopDuringTimeoutSleepStillPolls(s: State, p: seq<Notification>, next: PollOutcome)
    requires !s.stopping
    ensures var r := Attempts(s, p, [Poll(TimedOut), StopRequest, Poll(next)]);
            && r.consumed == 3
            && |r.state.trace| >= |s.trace| + 3
            && r.state.trace[|s.trace|..|s.trace| + 3] == [PollRequest(p), Sleep, PollRequest(p)]
  {
    var slept := s.(trace := s.trace + [PollRequest(p), Sleep]);
    var stopped := slept.(stopping := true);
    assert [Poll(TimedOut), StopRequest, Poll(next)] == [Poll(TimedOut)] + [StopRequest, Poll(next)];
    TimeoutSleepsAndRetries(s, p, [StopRequest, Poll(next)]);
    assert [StopRequest, Poll(next)] == [StopRequest] + [Poll(next)];
    StopThenRetry(slept, p, [Poll(next)]);
    LastRequestSent(stopped, p, next);
    var tr := Attempts(stopped, p, [Poll(next)]).state.trace;
    var k := |s.trace|;
    assert stopped.trace == s.trace + [PollRequest(p), Sleep] && stopped.trace <= tr;
    assert tr[k] == PollRequest(p) && tr[k + 1] == Sleep && tr[k + 2] == PollRequest(p);
    SliceOfThree(tr, k);
  }

  /** A `stop()` arriving inside the loop only raises the flag; the loop
      goes on with the next event. */
  lemma StopThenRetry(s: State, p: seq<Notification>, rest: seq<Event>)
    ensures var again := Attempts(s.(stopping := true), p, rest);
            Attempts(s, p, [StopRequest] + rest) == PollResult(again.state, again.consumed + 1)
  {
    var script := [StopRequest] + rest;
    assert script[0] == StopRequest && script[1..] == rest;
  }

  /** A single poll event sends exactly one request, with `p`, after what was
      already in the trace. */
  lemma LastRequestSent(s: State, p: seq<Notification>, o: PollOutcome)
    ensures var r := Attempts(s, p, [Poll(o)]);
            && r.consumed == 1
            && s.trace <= r.state.trace && |r.state.trace| > |s.trace|
            && r.state.trace[|s.trace|] == PollRequest(p)
  {
    StepRequestsFirst(s, p, Poll(o));
    StepSendsPayload(s, p, Poll(o));
    assert [Poll(o)][0] == Poll(o) && [Poll(o)][1..] == [];
  }

  lemma SliceOfThree(es: seq<Effect>, k: nat)
    requires k + 3 <= |es|
    ensures es[k..k + 3] == [es[k], es[k + 1], es[k + 2]]
  {
  }

  /** Without a stop request in the script, a long poll leaves the stop flag
      as it found it. */
  lemma {:induction false} PollsKeepStopping(s: State, p: seq<Notification>, script: seq<Event>)
    requires forall i :: 0 <= i < |script| ==> script[i].Poll?
    ensures Attempts(s, p, script).state.stopping == s.stopping
    decreases |script|
  {
    if script != [] {
      var step := Step(s, p, script[0]);
      if !step.done {
        assert forall i :: 0 <= i < |script[1..]| ==> script[1..][i] == script[i + 1];
        PollsKeepStopping(step.state, p, script[1..]);
      }
    }
  }
}

=== FILE: types.dfy ===
/** Values exchanged between the Apollo client and the configuration service,
    and the externally observable effects the client produces. */
module ApolloTypes {

  /** A configuration value as the service delivers it (a JSON string). */
  type Value = string

  /** One namespace's key/value mapping (a JSON object). */
  type Config = map<string, Value>

  datatype Option<+T> = None | Some(value: T)

  /** Python's `data[key] if key in data else default`. */
  function Lookup(data: Config, key: string, default: Option<Value>): (r: Option<Value>)
    ensures key in data ==> r == Some(data[key])
    ensures key !in data ==> r == default
  {
    if key in data then Some(data[key]) else default
  }

  /** An entry of `callback_funcs`: the built-in `init_config`, a user function
      (identified by `id`), or an object that is not callable and is skipped. */
  datatype Callback = InitConfigFn | UserFn(id: nat) | NotCallable(tag: nat)

  /** The argument of `add_callback_funcs`: a list or tuple of entries, or any
      other single object. */
  datatype CallbackArg = Many(entries: seq<Callback>) | Single(entry: Callback)

  /** The reply to a configuration fetch: its HTTP status and its decoded body
      (the `configurations` object for `/configs`, the whole object for `/configfiles`). */
  datatype HttpReply = HttpReply(status: int, body: Config)

  /** One entry of a 200 long-poll response, together with the reply that the
      follow-up fetch of that namespace receives. */
  datatype Change = Change(namespace: string, notificationId: int, fetched: HttpReply)

  /** What one long-poll request ends with: a response, or a `requests.Timeout`. */
  datatype PollOutcome = Responded(status: int, changes: seq<Change>) | TimedOut

  /** The scripted environment: the outcome of the next long-poll request; the
      outcome of a request during which a `stop()` (or a termination signal)
      arrives from another thread; or such a `stop()` arriving outside a request. */
  datatype Event = Poll(outcome: PollOutcome) | PollWithStop(outcome: PollOutcome) | StopRequest

  /** One element of the `notifications` request parameter. */
  datatype Notification = Notification(namespaceName: string, notificationId: int)

  /** What the client does to the outside world. */
  datatype Effect =
    | PollRequest(notifications: seq<Notification>)   // GET /notifications/v2
    | ConfigsRequest(namespace: string)                // GET /configs/... (uncached)
    | ConfigFilesRequest(namespace: string)            // GET /configfiles/json/... (cached)
    | Sleep                                            // time.sleep(timeout)
    | Call(callback: nat, data: Config)                // a user callback invoked with data
}
